=== FILE: README.md ===
# TurboAudio core, modelled in Dafny

TurboAudio drives LED strips from live audio. This project models three
sequential pieces of it as pure functions over immutable data and proves
properties of them.

- **The per-tick scheduler and output dispatcher** (`tick` and
  `send_to_connection`). Each strip has a color buffer, an ordered list of
  `(effect id, inclusive LED interval)` bindings and an optional connection
  id. For each binding, a tick cuts the interval out of the buffer, looks up
  the effect and its settings, checks that both carry the same variant tag
  (Moody, Raindrop or Lua), and runs that variant's update on the slice. After
  the last binding it serialises the buffer and sends it. Fatal conditions
  (an interval that does not fit, a missing effect or settings id, a settings
  variant mismatch, the unimplemented USB send) are `Outcome.Fatal`. Logged
  conditions (a Lua error, a failed TCP send, an unknown connection id) are
  `LogEntry` values in the per-strip `Report`. A failed TCP send drops that
  connection from the registry and clears the strip's connection id.
- **The spectral analyser** (`audio_processing.rs`). It keeps a fixed
  1024-sample history, modelled as the ring buffer it is (slots plus the index
  of the oldest slot), fed from a drained batch of at most 1024 samples. On top
  of that it computes the spectrum. The queries are modelled over `real` bins
  with the exact resolution 48000/1024 = 375/8:
  - the bin-index conversions: floor of `8f/375`, ceiling of `8f/375`, floor of `375i/8`;
  - the interpolated per-Hz amplitude;
  - the band average and the named low/mid/high bands;
  - the coarse range average over a closed range of bins.
- **The example Python effect** (`effects/python/test.py`). It increments
  every channel of every color, saturating at 255.

Modules: `Wrappers` (Option, map lookup), `Colors` (8-bit channels and the
R,G,B wire format), `Resources` (effects, settings, strips, connections, effect
bodies), `Diagnostics` (fatal errors, log entries, `Outcome`), `Dispatch`,
`Scheduler`, `Scenarios` (ticks over the program's fixture tables: effects
10/20/30, settings 0/1/2, connections 1 and 2), `AudioProcessing` and
`PythonEffect`.

The effect bodies `update_moody`, `update_raindrop` and `LuaEffect::tick` are
not part of this model. They are the fields of `EffectBodies`, typed so that
they keep the slice's length, as a `&mut [Color]` must. The Lua body returns
the slice as the script left it plus an optional error. The FFT is the
parameter `spectrum`, mapping a window of samples and a bin index to that
bin's magnitude. Whether a TCP send succeeds is the connection's `queueOpen`
flag: the channel send fails exactly when its receiver is gone.

Several behaviours of the code are easy to misread, and lemmas pin each one down:
- Band amplitudes look non-negative, since the bins are squared magnitudes,
  but the position between bins can reach 376/375, so the weight `1 - p` on
  the upper bin can be negative. At 93 Hz with bins `[0, 0, 1]` the amplitude
  is -1/375 (`NegativeAmplitudeAt93`).
- A degenerate band query does not give 0. When `min == max` it divides 0.0
  by 0.0, which gives NaN (the `Float.NaN` case). When `min > max` the `usize`
  subtraction underflows.
- The range query reads like an average, but it divides the closed range's sum
  by the index gap, one less than the bin count (`RangeAverageOfFlatSpectrum`).
  An interval narrower than one bin is not always 0: 46 to 47 Hz straddles a
  bin edge and returns the sum of bins 0 and 1 (`RangeStraddlingBinEdge`).
- A failing script does not get its slice restored. The code hands the script
  the slice mutably, so the model keeps whatever the script left there.
- The interpolation puts the weight `p` on the lower bin and `1 - p` on the
  upper one, the reverse of linear interpolation. The model keeps that
  weighting.

## Model

| member | source | states |
|---|---|---|
| `Colors.Serialize` | src/main.rs:119-123 | the payload has exactly 3 bytes per LED; bytes 3i, 3i+1, 3i+2 are LED i's red, green, blue |
| `Colors.DeserializeSerialize` | src/main.rs:119-123 | reading a payload back three bytes at a time gives the original color buffer |
| `Colors.SerializeDeserialize` | src/main.rs:119-123 | every byte sequence of length 3n is the payload of exactly the buffer it decodes to |
| `Colors.SerializeInjective` | src/main.rs:119-123 | two buffers with the same payload are the same buffer |
| `Dispatch.SendToConnection` | src/main.rs:110-138 | an unknown id is the `Err` result with nothing changed; a USB connection panics; an open TCP queue gets the full serialised buffer with nothing else changed; a closed one removes only that id from the registry, clears the strip's connection id, changes nothing else and still returns `Ok` |
| `Dispatch.PayloadDecodesToColors` | src/main.rs:119-127 | a sent frame has 3 bytes per LED and decodes back to the strip's colors |
| `Scheduler.Splice` | src/main.rs:150-153 | writing a slice back through the interval changes exactly the interval's positions and keeps the buffer length |
| `Scheduler.RunEffect` | src/main.rs:160-174 | an effect runs exactly when settings exist and carry its own variant tag; the result keeps the slice length; only a raindrop's state changes and its id is kept; only a script can report an error |
| `Scheduler.ApplyBinding` | src/main.rs:150-174 | a binding is fatal exactly when it fails the checks; the error names the first failed check in source order (interval, effect id, settings id, variant); otherwise the buffer keeps its length, positions outside the interval are untouched, other effects are untouched, and at most one script failure is logged |
| `Scheduler.BindingRunsItsOwnUpdate` | src/main.rs:160-172 | a resolved Moody, Raindrop or Lua binding writes its own variant's output into its interval; only Raindrop writes its new state back; a script error becomes one `LuaFailed` log entry and is not fatal |
| `Scheduler.ApplyBindings` | src/main.rs:149-175 | a strip's bindings complete exactly when every binding passes its checks; the buffer keeps its length; a position covered by no binding is never written; effect ids and variants are kept |
| `Scheduler.ApplyBindingsAppend` | src/main.rs:149 | bindings run in list order: running `bs + [b]` is running `bs` and then `b` on the buffer and effects they left |
| `Scheduler.LastBindingWins` | src/main.rs:149-153 | after the bindings run, the last binding's interval holds exactly what its own effect wrote from the buffer the earlier bindings left, so a later overlapping binding overwrites an earlier one |
| `Scheduler.TickStrip` | src/main.rs:148-181 | a strip's turn is fatal exactly when a binding fails its checks or the strip is bound to USB; the strip's buffer and the effect table become exactly what its bindings left; a frame is sent exactly when the strip is bound to an open TCP connection, whatever the effects did; the frame carries that painted buffer; a closed TCP queue unbinds the strip, removes exactly that connection from the registry and ends the log with `SendFailed` for it; on every other path the registry is unchanged, and any connection that leaves it is the strip's own, the strip ending unbound; with no connection or a delivered frame, the log is exactly the bindings' script failures; an unknown connection id is logged and changes neither the registry nor the strip's id |
| `Scheduler.Tick` | src/main.rs:141-183 | a completed tick reports once per strip; every buffer keeps its length and bindings; uncovered LEDs are untouched; a strip's connection id is kept or cleared, and cleared only when its TCP queue was closed, that id then being gone from the registry (the converse, that a closed queue does clear it, is `TickUnbindsClosedQueue`); the registry only loses closed TCP entries, and each one it loses was the connection of a strip that the tick left unbound; only raindrop states change |
| `Scheduler.TickPaintsEachStrip` | src/main.rs:148-175 | in a completed tick, strip i's buffer is exactly what its bindings paint, run against the effect table the turns of strips 0..i-1 left |
| `Scheduler.TickSendsPaintedBuffer` | src/main.rs:148-181 | a frame sent for strip i in a completed tick carries the buffer its bindings painted, so dispatch comes after all the strip's bindings |
| `Scheduler.TickStripAt` | src/main.rs:141-183 | in a completed tick, strip i's final state and report are exactly those of its own turn, taken with the effect table and registry that strips 0..i-1 left; the later turns only shrink the registry further |
| `Scheduler.TickUnbindsClosedQueue` | src/main.rs:124-131 | in a completed tick, a strip whose connection is a closed TCP queue when its turn comes ends unbound, and that connection is gone from the final registry |
| `Scheduler.UnusedConnectionSurvives` | src/main.rs:124-131 | a connection that no strip is bound to is still in the registry after a completed tick, with the same entry, since only a failed send to it removes it |
| `Scheduler.TickFatalIff` | src/main.rs:148-181 | a tick aborts exactly when some strip has a binding failing its checks or is bound to a USB connection, judged against the tables at the start of the tick |
| `Scheduler.FatalityIgnoresEffectBodies` | src/main.rs:168-171 | whether a tick aborts does not depend on the effect bodies, so script failures are never fatal |
| `Scheduler.UnboundStripStaysSilent` | src/main.rs:177-181 | a strip left without a connection id by one tick, whether cleared or never bound, sends nothing in the next tick and stays unbound |
| `Scenarios.ScriptStripSendsOneFrame` | src/main.rs:61-96 | with the fixture tables, a strip covered by Lua effect 30 and bound to open connection 1 ticks without fatal error and sends one frame of 3 bytes per LED to connection 1, whatever the script does |
| `Scenarios.MismatchedSettingsAreFatal` | src/main.rs:157-173 | binding Moody effect 10 to the Raindrop settings aborts the tick with a settings mismatch for effect 10 |
| `Scenarios.SerialConnectionIsFatal` | src/main.rs:134-136 | a strip bound to USB connection 2 aborts the tick at dispatch |
| `Scenarios.SharedClosedConnection` | src/main.rs:124-132 | when two strips share a closed TCP connection, the first strip is unbound and the connection removed; the second strip then only logs an unknown connection and keeps its id |
| `AudioProcessing.ContentsAt` | src/audio_processing.rs:111-114 | `Contents`, the order the history is iterated in to build the FFT window, lists the samples from oldest to newest: its k-th entry, for each of the 1024, is the slot k places after `first`, wrapping around |
| `AudioProcessing.NewHistory` | src/audio_processing.rs:95 | the history starts as 1024 zeros |
| `AudioProcessing.Push` | src/audio_processing.rs:108 | pushing a sample evicts the oldest sample and appends the new one, keeping exactly 1024 |
| `AudioProcessing.NewProcessor` | src/audio_processing.rs:92-103 | a new analyser has an all-zero history and an empty published spectrum |
| `AudioProcessing.ComputeFft` | src/audio_processing.rs:105-140 | k = min(queued, 1024) samples are drained from the front of the queue; the history becomes `old[k..] + drained`, unchanged when k = 0; the published spectrum has exactly 1024 bins, each computed from the updated history |
| `AudioProcessing.FloorIndex` | src/audio_processing.rs:52 | the index is the largest i with 375i <= 8f |
| `AudioProcessing.CeilIndex` | src/audio_processing.rs:66 | the index is the smallest i with 8f <= 375i |
| `AudioProcessing.BinFrequency` | src/audio_processing.rs:76-78 | the frequency is the largest f with 8f <= 375i |
| `AudioProcessing.IndexConversionsMatchResolution` | src/audio_processing.rs:12-14 | the three conversions are floor(f / 46.875), ceil(f / 46.875) and floor(i * 46.875), with 46.875 = 48000/1024 |
| `AudioProcessing.BracketingBins` | src/audio_processing.rs:63-66 | the bracketing indices are equal exactly when f is a multiple of 375 Hz, and otherwise adjacent |
| `AudioProcessing.Position` | src/audio_processing.rs:67-70 | the position between bins is never negative, so the `usize` subtraction never underflows |
| `AudioProcessing.PositionBounds` | src/audio_processing.rs:67-70 | the position lies in [0, 376/375]: `f` is at most 47 Hz past the truncated bin frequency, so it can pass 1 by 1/375 |
| `AudioProcessing.PositionOvershootsAt93` | src/audio_processing.rs:63-70 | at 93 Hz the bins are 1 and 2 and the position is 376/375 |
| `AudioProcessing.FrequencyAmplitude` | src/audio_processing.rs:62-74 | the amplitude is None exactly when the upper bracketing bin is past the end of the spectrum |
| `AudioProcessing.Interpolate` | src/audio_processing.rs:71-72 | equal bracketing bins give that bin's value whatever p is; p = 0 gives the upper bin alone |
| `AudioProcessing.AmplitudeAtBinFrequency` | src/audio_processing.rs:62-74 | at f = 375j the amplitude is exactly bin 8j |
| `AudioProcessing.AmplitudeOfFlatSpectrum` | src/audio_processing.rs:71-72 | on a flat spectrum every in-range frequency reads back the level |
| `AudioProcessing.NegativeAmplitudeAt93` | src/audio_processing.rs:62-74 | the non-negative bins [0, 0, 1] give the amplitude -1/375 at 93 Hz |
| `AudioProcessing.IntervalAverageAmplitude` | src/audio_processing.rs:39-49 | the band average is NaN exactly when min == max; for min < max its value is fixed by `BandOfOneFrequency` and `BandAverageSplits` |
| `AudioProcessing.BandOfOneFrequency` | src/audio_processing.rs:44-48 | a one-Hz band [f, f+1) is the interpolated amplitude at f, or 0 when that amplitude is None |
| `AudioProcessing.BandAverageSplits` | src/audio_processing.rs:44-48 | for lo < mid < hi, the width-weighted average over [lo, hi) is the sum of the weighted averages over [lo, mid) and [mid, hi); with the one-Hz case this fixes every band as the mean of its per-Hz amplitudes |
| `AudioProcessing.BandAverageOfFlatSpectrum` | src/audio_processing.rs:39-49 | for min < max with every bracketing bin in range, a flat spectrum's band average is its level (sum over integer f in [min, max) divided by max - min) |
| `AudioProcessing.BandPastEndIsZero` | src/audio_processing.rs:44-46 | a band whose frequencies all fall past the last bin counts each as 0 and averages to 0 |
| `AudioProcessing.LowFrequencyAmplitude` | src/audio_processing.rs:21-25 | the low band is the band average over 0 to 100 Hz and is never NaN |
| `AudioProcessing.MidFrequencyAmplitude` | src/audio_processing.rs:27-31 | the mid band is the band average over 100 to 1000 Hz and is never NaN |
| `AudioProcessing.HighFrequencyAmplitude` | src/audio_processing.rs:33-37 | the high band is the band average over 1000 to 2000 Hz and is never NaN |
| `AudioProcessing.NamedBandsOfFullSpectrum` | src/audio_processing.rs:21-37 | on a 1024-bin spectrum every frequency below 2000 Hz has both bins in range, so the fallback to 0 is never taken; a flat full spectrum reads back its level in all three bands |
| `AudioProcessing.IntervalAverage` | src/audio_processing.rs:51-59 | with low index floor(low/res) and high index min(floor(high/res), len-1), the result is 0 when low index >= high index; otherwise it is the sum of the closed bin range divided by the index gap |
| `AudioProcessing.RangeAverageOfFlatSpectrum` | src/audio_processing.rs:57-58 | on a flat spectrum with index gap n the result is the level times (n+1)/n, because the divisor is the gap and not the bin count |
| `AudioProcessing.EmptyRangeIsZero` | src/audio_processing.rs:52-56 | a query whose high bound is not above its low bound returns 0 |
| `AudioProcessing.RangeStraddlingBinEdge` | src/audio_processing.rs:52-58 | the 1 Hz query from 46 to 47 Hz resolves to bins 0 and 1 and returns their sum |
| `PythonEffect.SaturatingIncrement` | effects/python/test.py:11 | a channel below 255 goes up by one, and 255 stays 255 |
| `PythonEffect.Update` | effects/python/test.py:9-15 | the output has the input's length and order; each of red, green and blue is independently min(255, c+1) of the same LED's channel |
| `PythonEffect.UpdateIsMonotone` | effects/python/test.py:10-13 | no channel ever decreases, and one below 255 rises by exactly one |
| `PythonEffect.AllWhiteIsFixedPoint` | effects/python/test.py:10-13 | an all-255 list is left unchanged |
| `PythonEffect.UpdateTimesSaturates` | effects/python/test.py:9-15 | after n updates each channel is min(255, c+n), so every output channel stays at most 255 |
| `PythonEffect.WhiteAfter255Updates` | effects/python/test.py:9-15 | after 255 updates every LED is (255, 255, 255) |

## Left out

- `main`, `Args`, configuration loading, `start_audio_loop` and `PipewireController`: process bootstrapping, device I/O and an external audio graph.
- `test_and_run_loop`'s 16 ms sleep loop: wall-clock scaffolding. Its fixture tables appear in `Scenarios`. What `LedStrip::set_led_count` and `add_effect` build is not part of this model.
- `TcpConnection` internals, the `data_queue` channel and the USB transport. A send's success is the connection's `queueOpen` flag, and a queued frame is reported as a `Frame`.
- The bodies of `update_moody`, `update_raindrop` and `LuaEffect::tick`. They are length-preserving parameters in `EffectBodies`, and the fields of the raindrop state are opaque.
- `Scheduler.RunEffect`: a Lua script's own interpreter state is not modelled. `LuaEffect::tick` takes `&mut self`, and an interpreter's globals can persist between calls, but here a Lua effect is kept unchanged by assumption. Two runs of the same script on the same slice in one tick are therefore taken to give the same output.
- `PythonEffect.Update`: the list's colors are taken to be distinct objects. The script mutates each `Color` in place, so a list holding one object twice would raise it twice per call. A sequence of values cannot alias, so that case is not modelled.
- `Color::to_bytes`, whose file is not part of this model. It is taken to give `[r, g, b]`.
- The error messages printed to stderr. Each logged condition is a `LogEntry` carrying the failing id; its text is not modelled.
- The frames already sent by earlier strips in a tick that later aborts. A fatal outcome carries only its error, because the process ends there.
- The FFT (`rustfft`), the Hann window (`dasp_window`), `norm_sqr` and `sqrt`. They are the `spectrum` parameter, so only the spectrum's length and its dependence on the updated history are modelled. The scratch buffers are not modelled.
- f32 rounding in general. Bins, samples and the resolution are exact reals, so rounding at very large frequencies or in long sums is not modelled.
- The `Arc<RwLock<FftResult>>` sharing and the `ringbuf` consumer (concurrency). The queue is a sequence whose front is drained; what remains is returned.
- `turbo_plugin_python/scripts/test.py`: test scaffolding that depends on a foreign binding.
- `AudioProcessing.IntervalAverage`: requires a non-empty spectrum. The source computes `len - 1` on a `usize` and overflows on an empty spectrum, for example before the first FFT. The model excludes that panic instead of modelling it.
- `AudioProcessing.IntervalAverageAmplitude`: requires `min <= max`. The source computes `max - min` on `usize` and overflows otherwise; the model excludes that case. The source's `Option` is always `Some`, because `usize::to_f32` never fails, so the model returns the inner value. The named bands' `unwrap_or(0.0)` is therefore never taken.

=== FILE: audio_processing.dfy ===
/**
 * The spectral analyser: a fixed history of the last FFT_SIZE samples, fed
 * from the sample queue, the spectrum computed from it, and the queries
 * effects make on that spectrum (interpolated per-Hz band averages and a
 * coarse average over a closed range of bins).
 */
module AudioProcessing {
  import opened Wrappers

  const SAMPLE_RATE: nat := 48000
  const FFT_SIZE: nat := 1024

  /** Width of one bin in Hz: 48000 / 1024, which is 375 / 8 exactly. */
  const FFT_RESOLUTION: real := SAMPLE_RATE as real / FFT_SIZE as real

  function Min(a: int, b: int): int {
    if a <= b then a else b
  }

  // ---------------------------------------------------------------------------
  // History buffer

  /**
   * A fixed-capacity ring buffer: `data` holds FFT_SIZE samples and `first`
   * is the slot of the oldest one, which the next push overwrites.
   */
  datatype RingBuffer = RingBuffer(data: seq<real>, first: nat)

  type History = rb: RingBuffer | |rb.data| == FFT_SIZE && rb.first < FFT_SIZE
    witness RingBuffer(seq(FFT_SIZE, i => 0.0), 0)

  /** The samples from oldest to newest, the order the buffer is iterated in. */
  function Contents(rb: History): (s: seq<real>)
    ensures |s| == FFT_SIZE
  {
    rb.data[rb.first..] + rb.data[..rb.first]
  }

  /** The k-th oldest sample sits `k` slots after `first`, wrapping around. */
  lemma ContentsAt(rb: History, k: nat)
    requires k < FFT_SIZE
    ensures Contents(rb)[k] == rb.data[(rb.first + k) % FFT_SIZE]
  {
    if rb.first + k < FFT_SIZE {
      assert Contents(rb)[k] == rb.data[rb.first..][k];
    } else {
      assert Contents(rb)[k] == rb.data[..rb.first][k - (FFT_SIZE - rb.first)];
    }
  }

  /** The buffer a new analyser starts with. */
  function NewHistory(): (rb: History)
    ensures forall i :: 0 <= i < |Contents(rb)| ==> Contents(rb)[i] == 0.0
  {
    RingBuffer(seq(FFT_SIZE, i => 0.0), 0)
  }

  /** Pushes one sample, overwriting the oldest one. */
  function Push(rb: History, x: real): (r: History)
    ensures Contents(r) == Contents(rb)[1..] + [x]
  {
    PushShiftsContents(rb, x);
    RingBuffer(rb.data[rb.first := x], (rb.first + 1) % FFT_SIZE)
  }

  lemma PushShiftsContents(rb: History, x: real)
    ensures Contents(RingBuffer(rb.data[rb.first := x], (rb.first + 1) % FFT_SIZE)) == Contents(rb)[1..] + [x]
  {
    var data := rb.data[rb.first := x];
    var older := rb.data[rb.first + 1..];
    assert data[..rb.first + 1] == rb.data[..rb.first] + [x];
    assert Contents(rb)[1..] == older + rb.data[..rb.first];
    if rb.first + 1 < FFT_SIZE {
      assert (rb.first + 1) % FFT_SIZE == rb.first + 1;
      assert data[rb.first + 1..] == older;
      assert older + (rb.data[..rb.first] + [x]) == (older + rb.data[..rb.first]) + [x];
    } else {
      assert (rb.first + 1) % FFT_SIZE == 0;
      assert older == [];
      assert data[0..] + data[..0] == data;
      assert data == data[..rb.first + 1];
    }
  }

  /** A published spectrum: one magnitude per bin. */
  datatype FftResult = FftResult(rawBins: seq<real>)

  /** The analyser's state; its published result starts empty. */
  datatype AudioSignalProcessor = AudioSignalProcessor(history: History, fftResult: FftResult)

  function NewProcessor(): (p: AudioSignalProcessor)
    ensures forall i :: 0 <= i < FFT_SIZE ==> Contents(p.history)[i] == 0.0
    ensures p.fftResult.rawBins == []
  {
    AudioSignalProcessor(NewHistory(), FftResult([]))
  }

  /**
   * Drains at most FFT_SIZE samples from the front of `queue` into the
   * history, then publishes the spectrum of the new history. `spectrum(w, i)`
   * stands for bin `i` of the windowed FFT of the samples `w`.
   */
  method ComputeFft(p: AudioSignalProcessor, queue: seq<real>, spectrum: (seq<real>, nat) -> real)
    returns (next: AudioSignalProcessor, remaining: seq<real>)
    ensures var k := Min(|queue|, FFT_SIZE);
      && remaining == queue[k..]
      && Contents(next.history) == Contents(p.history)[k..] + queue[..k]
    ensures |next.fftResult.rawBins| == FFT_SIZE
    ensures forall i :: 0 <= i < FFT_SIZE ==> next.fftResult.rawBins[i] == spectrum(Contents(next.history), i)
  {
    // the transfer buffer holds FFT_SIZE samples, so at most that many are drained
    var count := Min(|queue|, FFT_SIZE);
    var drained := queue[..count];
    remaining := queue[count..];
    var history := p.history;
    var i := 0;
    while i < count
      invariant 0 <= i <= count
      invariant Contents(history) == Contents(p.history)[i..] + drained[..i]
    {
      assert Contents(history)[1..] == Contents(p.history)[i + 1..] + drained[..i];
      assert drained[..i + 1] == drained[..i] + [drained[i]];
      history := Push(history, drained[i]);
      i := i + 1;
    }
    var window := Contents(history);
    var bins := seq(FFT_SIZE, j requires 0 <= j < FFT_SIZE => spectrum(window, j));
    next := AudioSignalProcessor(history, FftResult(bins));
  }

  // ---------------------------------------------------------------------------
  // Frequency and bin index arithmetic

  /** The bin a frequency falls in: its index truncated towards zero. */
  function FloorIndex(f: nat): (i: nat)
    ensures 375 * i <= 8 * f < 375 * (i + 1)
  {
    f * 8 / 375
  }

  /** The bin at or just above a frequency: its index rounded up. */
  function CeilIndex(f: nat): (i: nat)
    ensures 375 * (i - 1) < 8 * f <= 375 * i
  {
    (f * 8 + 374) / 375
  }

  /** The frequency of a bin's lower edge, truncated to a whole Hz. */
  function BinFrequency(i: nat): (f: nat)
    ensures 8 * f <= 375 * i < 8 * (f + 1)
  {
    i * 375 / 8
  }

  /**
   * The three index conversions are the floor and ceiling of the frequency
   * divided by the resolution, and the floor of the index times it.
   */
  lemma IndexConversionsMatchResolution(f: nat, i: nat)
    ensures (FloorIndex(f) as real) <= (f as real) / FFT_RESOLUTION < (FloorIndex(f) as real) + 1.0
    ensures (CeilIndex(f) as real) - 1.0 < (f as real) / FFT_RESOLUTION <= (CeilIndex(f) as real)
    ensures (BinFrequency(i) as real) <= (i as real) * FFT_RESOLUTION < (BinFrequency(i) as real) + 1.0
  {
    assert FFT_RESOLUTION == 375.0 / 8.0;
  }

  /** The two bracketing bins are the same bin exactly at multiples of 375 Hz, else neighbours. */
  lemma BracketingBins(f: nat)
    ensures FloorIndex(f) <= CeilIndex(f) <= FloorIndex(f) + 1
    ensures FloorIndex(f) == CeilIndex(f) <==> f % 375 == 0
  {
    var q := f / 375;
    var r := f % 375;
    assert f == 375 * q + r;
    if r == 0 {
      assert 8 * f == 375 * (8 * q);
      assert FloorIndex(f) == 8 * q;
      assert CeilIndex(f) == 8 * q;
    } else if FloorIndex(f) == CeilIndex(f) {
      assert false;
    }
  }

  /**
   * How far `f` lies past the lower bracketing bin, in bins. The subtraction
   * never goes below zero: the truncated bin frequency is at most `f`.
   */
  function Position(f: nat): (p: real)
    ensures p >= 0.0
  {
    var below := BinFrequency(FloorIndex(f));
    assert below <= f;
    ((f - below) as real) / FFT_RESOLUTION
  }

  /**
   * The position is at most 376/375: because the bin frequency is truncated,
   * `f` can lie up to 47 Hz past it, which is 1/375 of a bin beyond 1.
   */
  lemma PositionBounds(f: nat)
    ensures 0.0 <= Position(f) <= 376.0 / 375.0
  {
    var i := FloorIndex(f);
    var below := BinFrequency(i);
    assert f - below <= 47;
  }

  /** At 93 Hz the position is 376/375, past the upper bin. */
  lemma PositionOvershootsAt93()
    ensures FloorIndex(93) == 1 && CeilIndex(93) == 2
    ensures Position(93) == 376.0 / 375.0
  {
  }

  /**
   * The amplitude at a whole frequency, interpolated between its bracketing
   * bins, with weight `p` on the lower bin and `1 - p` on the upper one; None
   * when a bracketing bin lies past the end of the spectrum.
   */
  function FrequencyAmplitude(bins: seq<real>, f: nat): (r: Option<real>)
    ensures r.Some? <==> CeilIndex(f) < |bins|
  {
    var lo := FloorIndex(f);
    var hi := CeilIndex(f);
    if lo < |bins| && hi < |bins| then Some(Interpolate(bins[lo], bins[hi], Position(f))) else None
  }

  /** Weight `p` on `lower` and `1 - p` on `upper`; the weights sum to 1. */
  function Interpolate(lower: real, upper: real, p: real): (r: real)
    ensures lower == upper ==> r == lower
    ensures p == 0.0 ==> r == upper
  {
    lower * p + upper * (1.0 - p)
  }

  /** At a bin's own frequency (a multiple of 375 Hz) the amplitude is that bin. */
  lemma AmplitudeAtBinFrequency(bins: seq<real>, j: nat)
    requires 8 * j < |bins|
    ensures FrequencyAmplitude(bins, 375 * j) == Some(bins[8 * j])
  {
    assert FloorIndex(375 * j) == 8 * j;
    assert CeilIndex(375 * j) == 8 * j;
    assert BinFrequency(8 * j) == 375 * j;
    assert Position(375 * j) == 0.0;
  }

  /** The two weights sum to 1, so a flat spectrum reads back its level at every frequency in range. */
  lemma AmplitudeOfFlatSpectrum(bins: seq<real>, c: real, f: nat)
    requires forall k :: 0 <= k < |bins| ==> bins[k] == c
    requires CeilIndex(f) < |bins|
    ensures FrequencyAmplitude(bins, f) == Some(c)
  {
    BracketingBins(f);
  }

  /** Because the position can exceed 1, a non-negative spectrum can give a negative amplitude. */
  lemma NegativeAmplitudeAt93()
    ensures FrequencyAmplitude([0.0, 0.0, 1.0], 93) == Some(-1.0 / 375.0)
  {
    PositionOvershootsAt93();
  }

  // ---------------------------------------------------------------------------
  // Band queries

  /** The sum of a sequence of reals, first element first. */
  function Sum(xs: seq<real>): real {
    if |xs| == 0 then 0.0 else xs[0] + Sum(xs[1..])
  }

  lemma {:induction false} SumOfConstant(xs: seq<real>, c: real)
    requires forall k :: 0 <= k < |xs| ==> xs[k] == c
    ensures Sum(xs) == |xs| as real * c
  {
    if |xs| > 0 {
      assert forall k :: 0 <= k < |xs[1..]| ==> xs[1..][k] == xs[k + 1];
      SumOfConstant(xs[1..], c);
    }
  }

  /** An f32 result: a real number, or the NaN of a division of zero by zero. */
  datatype Float = Real(value: real) | NaN

  /** The amplitude at each whole frequency in `[min, max)`, an out-of-range one counting 0. */
  function BandAmplitudes(bins: seq<real>, min: nat, max: nat): (a: seq<real>)
    requires min <= max
    ensures |a| == max - min
    ensures forall k :: 0 <= k < |a| ==> a[k] == FrequencyAmplitude(bins, min + k).GetOr(0.0)
  {
    seq(max - min, k requires 0 <= k < max - min => FrequencyAmplitude(bins, min + k).GetOr(0.0))
  }

  /** The mean interpolated amplitude over whole frequencies in `[min, max)`. */
  function IntervalAverageAmplitude(bins: seq<real>, min: nat, max: nat): (r: Float)
    requires min <= max
    ensures r.NaN? <==> min == max
  {
    if min == max then NaN else Real(Sum(BandAmplitudes(bins, min, max)) / (max - min) as real)
  }

  lemma CeilIndexMonotone(a: nat, b: nat)
    requires a <= b
    ensures CeilIndex(a) <= CeilIndex(b)
  {
  }

  lemma DivideProduct(n: real, c: real)
    requires n != 0.0
    ensures n * c / n == c
  {
  }

  /** Every per-frequency amplitude of a band inside a flat spectrum is its level. */
  lemma FlatBandAmplitudes(bins: seq<real>, c: real, min: nat, max: nat)
    requires min < max
    requires forall k :: 0 <= k < |bins| ==> bins[k] == c
    requires CeilIndex(max - 1) < |bins|
    ensures forall k :: 0 <= k < max - min ==> BandAmplitudes(bins, min, max)[k] == c
  {
    var a := BandAmplitudes(bins, min, max);
    forall k | 0 <= k < |a|
      ensures a[k] == c
    {
      CeilIndexMonotone(min + k, max - 1);
      AmplitudeOfFlatSpectrum(bins, c, min + k);
    }
  }

  lemma MeanOfConstant(xs: seq<real>, c: real)
    requires |xs| > 0
    requires forall k :: 0 <= k < |xs| ==> xs[k] == c
    ensures Sum(xs) / |xs| as real == c
  {
    SumOfConstant(xs, c);
    DivideProduct(|xs| as real, c);
  }

  /** A band entirely inside a flat spectrum averages to its level. */
  lemma BandAverageOfFlatSpectrum(bins: seq<real>, c: real, min: nat, max: nat)
    requires min < max
    requires forall k :: 0 <= k < |bins| ==> bins[k] == c
    requires CeilIndex(max - 1) < |bins|
    ensures IntervalAverageAmplitude(bins, min, max) == Real(c)
  {
    FlatBandAmplitudes(bins, c, min, max);
    MeanOfConstant(BandAmplitudes(bins, min, max), c);
  }

  /** A band that starts past the last bin averages to 0. */
  lemma BandPastEndIsZero(bins: seq<real>, min: nat, max: nat)
    requires min < max
    requires CeilIndex(min) >= |bins|
    ensures IntervalAverageAmplitude(bins, min, max) == Real(0.0)
  {
    var a := BandAmplitudes(bins, min, max);
    forall k | 0 <= k < |a|
      ensures a[k] == 0.0
    {
      CeilIndexMonotone(min, min + k);
    }
    SumOfConstant(a, 0.0);
  }

  lemma {:induction false} SumAppend(xs: seq<real>, ys: seq<real>)
    ensures Sum(xs + ys) == Sum(xs) + Sum(ys)
  {
    if |xs| == 0 {
      assert xs + ys == ys;
    } else {
      assert (xs + ys)[1..] == xs[1..] + ys;
      SumAppend(xs[1..], ys);
    }
  }

  /**
   * A mean scaled back to the total it was taken over: `count` values with
   * mean `mean` sum to `Weighted(count, mean)`. Band additivity is stated as
   * total = total + total through it.
   */
  function Weighted(count: nat, mean: real): real {
    count as real * mean
  }

  /** Two means, weighted by their counts, recombine into the mean of the union. */
  lemma RecombineMeans(t1: real, t2: real, n1: nat, n2: nat, n: nat, m: real, m1: real, m2: real)
    requires n1 > 0 && n2 > 0 && n == n1 + n2
    requires m == (t1 + t2) / n as real && m1 == t1 / n1 as real && m2 == t2 / n2 as real
    ensures Weighted(n, m) == Weighted(n1, m1) + Weighted(n2, m2)
  {
    assert Weighted(n, m) == t1 + t2;
    assert Weighted(n1, m1) == t1;
    assert Weighted(n2, m2) == t2;
  }

  /** A one-frequency band reads the interpolated amplitude at that frequency, 0 past the end. */
  lemma BandOfOneFrequency(bins: seq<real>, f: nat)
    ensures IntervalAverageAmplitude(bins, f, f + 1) == Real(FrequencyAmplitude(bins, f).GetOr(0.0))
  {
    var a := BandAmplitudes(bins, f, f + 1);
    assert a[1..] == [];
    assert Sum(a) == a[0];
  }

  lemma BandAmplitudesSplit(bins: seq<real>, lo: nat, mid: nat, hi: nat)
    requires lo <= mid <= hi
    ensures BandAmplitudes(bins, lo, hi) == BandAmplitudes(bins, lo, mid) + BandAmplitudes(bins, mid, hi)
  {
    var whole := BandAmplitudes(bins, lo, hi);
    var left := BandAmplitudes(bins, lo, mid);
    var right := BandAmplitudes(bins, mid, hi);
    forall k | 0 <= k < |whole|
      ensures whole[k] == (left + right)[k]
    {
      if k < mid - lo {
        assert whole[k] == left[k];
      } else {
        assert whole[k] == right[k - (mid - lo)];
      }
    }
  }

  /** A non-degenerate band's average is the total of its per-Hz amplitudes over its width. */
  lemma BandMean(bins: seq<real>, lo: nat, hi: nat)
    requires lo < hi
    ensures IntervalAverageAmplitude(bins, lo, hi).value == Sum(BandAmplitudes(bins, lo, hi)) / (hi - lo) as real
  {
  }

  /** The three band averages around an inner frequency, as totals over widths of the two halves. */
  lemma BandMeansAroundSplit(bins: seq<real>, lo: nat, mid: nat, hi: nat)
    requires lo < mid < hi
    ensures var left := Sum(BandAmplitudes(bins, lo, mid));
      var right := Sum(BandAmplitudes(bins, mid, hi));
      && IntervalAverageAmplitude(bins, lo, hi).value == (left + right) / (hi - lo) as real
      && IntervalAverageAmplitude(bins, lo, mid).value == left / (mid - lo) as real
      && IntervalAverageAmplitude(bins, mid, hi).value == right / (hi - mid) as real
  {
    BandMean(bins, lo, hi);
    BandMean(bins, lo, mid);
    BandMean(bins, mid, hi);
    BandAmplitudesSplit(bins, lo, mid, hi);
    SumAppend(BandAmplitudes(bins, lo, mid), BandAmplitudes(bins, mid, hi));
  }

  /**
   * Band averages split at any inner frequency: the total over `[lo, hi)` is
   * the total over `[lo, mid)` plus the total over `[mid, hi)`. Together with
   * `BandOfOneFrequency` this pins every band to the mean of its per-Hz
   * amplitudes.
   */
  lemma BandAverageSplits(bins: seq<real>, lo: nat, mid: nat, hi: nat)
    requires lo < mid < hi
    ensures Weighted(hi - lo, IntervalAverageAmplitude(bins, lo, hi).value) ==
            Weighted(mid - lo, IntervalAverageAmplitude(bins, lo, mid).value)
            + Weighted(hi - mid, IntervalAverageAmplitude(bins, mid, hi).value)
  {
    BandMeansAroundSplit(bins, lo, mid, hi);
    RecombineMeans(Sum(BandAmplitudes(bins, lo, mid)), Sum(BandAmplitudes(bins, mid, hi)),
                   mid - lo, hi - mid, hi - lo,
                   IntervalAverageAmplitude(bins, lo, hi).value,
                   IntervalAverageAmplitude(bins, lo, mid).value,
                   IntervalAverageAmplitude(bins, mid, hi).value);
  }

  /** The band average of 0 to 100 Hz. */
  function LowFrequencyAmplitude(r: FftResult): (a: real)
    ensures IntervalAverageAmplitude(r.rawBins, 0, 100) == Real(a)
  {
    IntervalAverageAmplitude(r.rawBins, 0, 100).value
  }

  /** The band average of 100 to 1000 Hz. */
  function MidFrequencyAmplitude(r: FftResult): (a: real)
    ensures IntervalAverageAmplitude(r.rawBins, 100, 1000) == Real(a)
  {
    IntervalAverageAmplitude(r.rawBins, 100, 1000).value
  }

  /** The band average of 1000 to 2000 Hz. */
  function HighFrequencyAmplitude(r: FftResult): (a: real)
    ensures IntervalAverageAmplitude(r.rawBins, 1000, 2000) == Real(a)
  {
    IntervalAverageAmplitude(r.rawBins, 1000, 2000).value
  }

  /**
   * On a full spectrum every frequency of the three named bands has both its
   * bins in range, and a flat full spectrum reads back its level in each band.
   */
  lemma NamedBandsOfFullSpectrum(r: FftResult, c: real)
    requires |r.rawBins| == FFT_SIZE
    ensures forall f :: 0 <= f < 2000 ==> FrequencyAmplitude(r.rawBins, f).Some?
    ensures (forall k :: 0 <= k < |r.rawBins| ==> r.rawBins[k] == c) ==>
      LowFrequencyAmplitude(r) == c && MidFrequencyAmplitude(r) == c && HighFrequencyAmplitude(r) == c
  {
    forall f | 0 <= f < 2000
      ensures FrequencyAmplitude(r.rawBins, f).Some?
    {
      CeilIndexMonotone(f, 1999);
    }
    if forall k :: 0 <= k < |r.rawBins| ==> r.rawBins[k] == c {
      BandAverageOfFlatSpectrum(r.rawBins, c, 0, 100);
      BandAverageOfFlatSpectrum(r.rawBins, c, 100, 1000);
      BandAverageOfFlatSpectrum(r.rawBins, c, 1000, 2000);
    }
  }

  // ---------------------------------------------------------------------------
  // Range average over raw bins

  /**
   * The bin index a range query resolves its upper bound to: the floor index,
   * clamped to the last bin. The lower bound resolves to its floor index as is.
   */
  function HighIndex(bins: seq<real>, high: nat): nat
    requires |bins| > 0
  {
    Min(FloorIndex(high), |bins| - 1)
  }

  /**
   * The sum of the raw bins in the closed index range the two bounds resolve
   * to, divided by the distance between the two indices; 0 when the low index
   * is not below the high one.
   */
  function IntervalAverage(bins: seq<real>, low: nat, high: nat): (r: real)
    requires |bins| > 0
    ensures FloorIndex(low) >= HighIndex(bins, high) ==> r == 0.0
    ensures FloorIndex(low) < HighIndex(bins, high) ==>
      r * (HighIndex(bins, high) - FloorIndex(low)) as real == Sum(bins[FloorIndex(low)..HighIndex(bins, high) + 1])
  {
    var lo := FloorIndex(low);
    var hi := HighIndex(bins, high);
    if lo >= hi then 0.0 else Sum(bins[lo..hi + 1]) / (hi - lo) as real
  }

  /**
   * On a flat spectrum the range average is the level times (n + 1) / n for
   * an index gap n: the closed range has one more bin than the divisor.
   */
  lemma RangeAverageOfFlatSpectrum(bins: seq<real>, c: real, low: nat, high: nat)
    requires |bins| > 0
    requires forall k :: 0 <= k < |bins| ==> bins[k] == c
    requires FloorIndex(low) < HighIndex(bins, high)
    ensures var n := (HighIndex(bins, high) - FloorIndex(low)) as real;
      IntervalAverage(bins, low, high) == c * (n + 1.0) / n
  {
    var lo := FloorIndex(low);
    var hi := HighIndex(bins, high);
    SumOfConstant(bins[lo..hi + 1], c);
  }

  /** A range whose bounds do not increase averages to 0. */
  lemma EmptyRangeIsZero(bins: seq<real>, low: nat, high: nat)
    requires |bins| > 0
    requires high <= low
    ensures IntervalAverage(bins, low, high) == 0.0
  {
  }

  /** A range narrower than one bin that straddles a bin edge is not empty: 46 to 47 Hz averages bins 0 and 1. */
  lemma RangeStraddlingBinEdge(bins: seq<real>)
    requires |bins| >= 2
    ensures IntervalAverage(bins, 46, 47) == bins[0] + bins[1]
  {
    assert FloorIndex(46) == 0;
    assert HighIndex(bins, 47) == 1;
    assert bins[0..2] == [bins[0], bins[1]];
    assert [bins[0], bins[1]][1..] == [bins[1]];
    assert [bins[1]][1..] == [];
    assert Sum([bins[1]]) == bins[1];
    assert Sum([bins[0], bins[1]]) == bins[0] + bins[1];
  }
}

=== FILE: colors.dfy ===
/**
 * LED colors and the wire format they are sent in: one byte per channel,
 * three bytes per LED in the order red, green, blue.
 */
module Colors {

  /** An 8-bit channel value (Rust `u8`). */
  type Byte = x: int | 0 <= x < 256

  /** One LED color, three 8-bit channels. */
  datatype Color = Color(r: Byte, g: Byte, b: Byte)

  /** The three bytes one color serialises to. */
  function ToBytes(c: Color): (bytes: seq<Byte>)
    ensures |bytes| == 3
    ensures bytes[0] == c.r && bytes[1] == c.g && bytes[2] == c.b
  {
    [c.r, c.g, c.b]
  }

  /**
   * The payload for a color buffer: each color's bytes, concatenated in LED
   * index order (the `flat_map` over `to_bytes` before a send).
   */
  function Serialize(colors: seq<Color>): (bytes: seq<Byte>)
    ensures |bytes| == 3 * |colors|
    ensures forall i :: 0 <= i < |colors| ==>
      bytes[3 * i] == colors[i].r && bytes[3 * i + 1] == colors[i].g && bytes[3 * i + 2] == colors[i].b
  {
    if |colors| == 0 then []
    else
      var rest := Serialize(colors[1..]);
      assert forall i :: 1 <= i < |colors| ==> colors[i] == colors[1..][i - 1];
      ToBytes(colors[0]) + rest
  }

  /** Reads a payload back into colors, three bytes per LED. */
  function Deserialize(bytes: seq<Byte>): (colors: seq<Color>)
    requires |bytes| % 3 == 0
    ensures 3 * |colors| == |bytes|
    decreases |bytes|
  {
    if |bytes| == 0 then []
    else [Color(bytes[0], bytes[1], bytes[2])] + Deserialize(bytes[3..])
  }

  /** Reading a serialised buffer back gives the buffer. */
  lemma {:induction false} DeserializeSerialize(colors: seq<Color>)
    ensures Deserialize(Serialize(colors)) == colors
  {
    if |colors| > 0 {
      var bytes := Serialize(colors);
      assert bytes[3..] == Serialize(colors[1..]);
      DeserializeSerialize(colors[1..]);
    }
  }

  /** Serialising a payload read back gives the payload: the wire format has no slack. */
  lemma {:induction false} SerializeDeserialize(bytes: seq<Byte>)
    requires |bytes| % 3 == 0
    ensures Serialize(Deserialize(bytes)) == bytes
    decreases |bytes|
  {
    if |bytes| > 0 {
      var colors := Deserialize(bytes);
      assert colors[1..] == Deserialize(bytes[3..]);
      SerializeDeserialize(bytes[3..]);
    }
  }

  /** Serialisation is injective: two buffers with the same payload are equal. */
  lemma SerializeInjective(a: seq<Color>, b: seq<Color>)
    requires Serialize(a) == Serialize(b)
    ensures a == b
  {
    DeserializeSerialize(a);
    DeserializeSerialize(b);
  }
}

=== FILE: diagnostics.dfy ===
/**
 * The outcome taxonomy of a tick: fatal conditions abort the whole tick,
 * logged conditions are recorded and the tick goes on.
 */
module Diagnostics {

  /** The conditions that end the process. */
  datatype FatalError =
    | IntervalOutOfBounds(effectId: int)
    | EffectNotFound(effectId: int)
    | SettingIdNotFound(effectId: int)
    | SettingsMismatch(effectId: int)
    | UsbNotImplemented(connectionId: int)

  /** The conditions that are written to the error log and survived. */
  datatype LogEntry =
    | LuaFailed(effectId: int, message: string)
    | SendFailed(connectionId: int)
    | UnknownConnection(connectionId: int)

  /** Either a value or the fatal condition that stopped the computation. */
  datatype Outcome<+T> = Done(value: T) | Fatal(error: FatalError) {

    predicate IsFailure() {
      Fatal?
    }

    function PropagateFailure<U>(): Outcome<U>
      requires Fatal?
    {
      Fatal(error)
    }

    function Extract(): T
      requires Done?
    {
      value
    }
  }
}

=== FILE: dispatch.dfy ===
/**
 * Output dispatch: serialise a strip's color buffer and hand it to the strip's
 * connection; a closed stream connection is dropped from the registry and
 * unbound from the strip.
 */
module Dispatch {
  import opened Wrappers
  import opened Colors
  import opened Resources
  import opened Diagnostics

  /** A payload handed to a connection's send queue. */
  datatype Frame = Frame(connectionId: int, payload: seq<Byte>)

  /**
   * The three ways a send ends: `Sent` is the source's `Ok(())` (the frame
   * went out, or the queue was closed and the connection was dropped),
   * `NoSuchConnection` is its `Err`, and `Panicked` is the unimplemented
   * serial path.
   */
  datatype SendResult =
    | Sent(strip: LedStrip, connections: map<int, Connection>, frame: Option<Frame>, log: seq<LogEntry>)
    | NoSuchConnection(connectionId: int)
    | Panicked(error: FatalError)

  /** Sends `strip`'s colors over connection `connectionId` of the registry. */
  function SendToConnection(strip: LedStrip, connectionId: int, connections: map<int, Connection>): (r: SendResult)
    // an unknown id is an error and nothing changes
    ensures r.NoSuchConnection? <==> connectionId !in connections
    ensures r.NoSuchConnection? ==> r.connectionId == connectionId
    // the serial transport has no send path
    ensures r.Panicked? <==> connectionId in connections && connections[connectionId].Usb?
    ensures r.Panicked? ==> r.error == UsbNotImplemented(connectionId)
    // an open stream queue receives the whole buffer and nothing else changes
    ensures r.Sent? && r.frame.Some? <==>
      connectionId in connections && connections[connectionId].Tcp? && connections[connectionId].tcp.queueOpen
    ensures r.Sent? && r.frame.Some? ==>
      && r.frame.value == Frame(connectionId, Serialize(strip.colors))
      && r.strip == strip && r.connections == connections && r.log == []
    // a closed stream queue drops exactly that connection and unbinds the strip
    ensures r.Sent? && r.frame.None? ==>
      && connectionId in connections && connections[connectionId].Tcp?
      && r.connections.Keys == connections.Keys - {connectionId}
      && (forall c :: c in r.connections ==> r.connections[c] == connections[c])
      && r.strip == strip.(connectionId := None)
      && r.log == [SendFailed(connectionId)]
  {
    if connectionId !in connections then NoSuchConnection(connectionId)
    else
      var data := Serialize(strip.colors);
      match connections[connectionId]
      case Tcp(tcp) =>
        if tcp.queueOpen then Sent(strip, connections, Some(Frame(connectionId, data)), [])
        else Sent(strip.(connectionId := None), connections - {connectionId}, None, [SendFailed(connectionId)])
      case Usb(_) => Panicked(UsbNotImplemented(connectionId))
  }

  /** The payload of a send is exactly the buffer: it decodes back to the strip's colors. */
  lemma PayloadDecodesToColors(strip: LedStrip, connectionId: int, connections: map<int, Connection>)
    requires SendToConnection(strip, connectionId, connections).Sent?
    requires SendToConnection(strip, connectionId, connections).frame.Some?
    ensures var p := SendToConnection(strip, connectionId, connections).frame.value.payload;
      |p| == 3 * |strip.colors| && Deserialize(p) == strip.colors
  {
    DeserializeSerialize(strip.colors);
  }
}

=== FILE: python_effect.dfy ===
/** The example Python effect: every channel of every color goes up by one, stopping at 255. */
module PythonEffect {
  import opened Colors

  function SaturatingIncrement(c: Byte): (r: Byte)
    ensures r == if c < 255 then c + 1 else 255
  {
    if 255 < c + 1 then 255 else c + 1
  }

  /** The effect's `update`: each color with each channel incremented, saturating at 255. */
  function Update(colors: seq<Color>): (r: seq<Color>)
    ensures |r| == |colors|
    ensures forall i :: 0 <= i < |colors| ==>
      && r[i].r == SaturatingIncrement(colors[i].r)
      && r[i].g == SaturatingIncrement(colors[i].g)
      && r[i].b == SaturatingIncrement(colors[i].b)
  {
    seq(|colors|, i requires 0 <= i < |colors| =>
      Color(SaturatingIncrement(colors[i].r), SaturatingIncrement(colors[i].g), SaturatingIncrement(colors[i].b)))
  }

  /** `Update` applied `n` times. */
  function UpdateTimes(colors: seq<Color>, n: nat): (r: seq<Color>)
    ensures |r| == |colors|
  {
    if n == 0 then colors else Update(UpdateTimes(colors, n - 1))
  }

  /** No channel ever goes down, and a channel below 255 goes up by exactly one. */
  lemma UpdateIsMonotone(colors: seq<Color>)
    ensures forall i :: 0 <= i < |colors| ==>
      && colors[i].r <= Update(colors)[i].r
      && colors[i].g <= Update(colors)[i].g
      && colors[i].b <= Update(colors)[i].b
    ensures forall i :: 0 <= i < |colors| && colors[i].r < 255 ==> Update(colors)[i].r == colors[i].r + 1
    ensures forall i :: 0 <= i < |colors| && colors[i].g < 255 ==> Update(colors)[i].g == colors[i].g + 1
    ensures forall i :: 0 <= i < |colors| && colors[i].b < 255 ==> Update(colors)[i].b == colors[i].b + 1
  {
  }

  /** An all-white buffer is a fixed point of the effect. */
  lemma AllWhiteIsFixedPoint(colors: seq<Color>)
    requires forall i :: 0 <= i < |colors| ==> colors[i] == Color(255, 255, 255)
    ensures Update(colors) == colors
  {
  }

  /**
   * After `n` updates every channel reads `min(255, c + n)`: the effect is a
   * saturating counter, so any buffer is white after 255 updates.
   */
  lemma {:induction false} UpdateTimesSaturates(colors: seq<Color>, n: nat)
    ensures forall i :: 0 <= i < |colors| ==>
      && UpdateTimes(colors, n)[i].r == (if colors[i].r + n < 255 then colors[i].r + n else 255)
      && UpdateTimes(colors, n)[i].g == (if colors[i].g + n < 255 then colors[i].g + n else 255)
      && UpdateTimes(colors, n)[i].b == (if colors[i].b + n < 255 then colors[i].b + n else 255)
  {
    if n > 0 {
      UpdateTimesSaturates(colors, n - 1);
    }
  }

  /** Any buffer is white after 255 updates. */
  lemma WhiteAfter255Updates(colors: seq<Color>)
    ensures forall i :: 0 <= i < |colors| ==> UpdateTimes(colors, 255)[i] == Color(255, 255, 255)
  {
    UpdateTimesSaturates(colors, 255);
  }
}

=== FILE: resources.dfy ===
/**
 * The resource model the scheduler works on: effects and their settings (two
 * tagged unions over the same three variants), LED strips with their effect
 * bindings, transport connections, and the effect bodies, which are not part
 * of this model and are taken as parameters.
 */
module Resources {
  import opened Wrappers
  import opened Colors

  /** The variant tag an effect and the settings bound to it must share. */
  datatype Tag = MoodyTag | RaindropTag | LuaTag

  /** A stateless effect that paints its range towards a target color. */
  datatype Moody = Moody(id: int)

  /** The ripples a raindrop effect accumulates from tick to tick. */
  datatype RaindropState = RaindropState(ripples: seq<real>)

  /** A stateful ripple effect. */
  datatype Raindrops = Raindrops(id: int, state: RaindropState)

  /** A script-driven effect; `script` names the script it was loaded from. */
  datatype LuaEffect = LuaEffect(script: string)

  datatype Effect =
    | Moody(moody: Moody)
    | Raindrop(raindrop: Raindrops)
    | Lua(lua: LuaEffect)
  {
    function Tag(): Tag {
      match this
      case Moody(_) => MoodyTag
      case Raindrop(_) => RaindropTag
      case Lua(_) => LuaTag
    }
  }

  datatype MoodySettings = MoodySettings(color: Color)

  datatype RaindropSettings = RaindropSettings(rainSpeed: int, dropRate: real)

  /** Script parameters, kept as the JSON text handed to the script. */
  datatype LuaEffectSettings = LuaEffectSettings(settings: string)

  datatype Settings =
    | Moody(moody: MoodySettings)
    | Raindrop(raindrop: RaindropSettings)
    | Lua(lua: LuaEffectSettings)
  {
    function Tag(): Tag {
      match this
      case Moody(_) => MoodyTag
      case Raindrop(_) => RaindropTag
      case Lua(_) => LuaTag
    }
  }

  /** An inclusive LED index range `[first, last]`. */
  datatype Interval = Interval(first: nat, last: nat)

  /**
   * True iff the inclusive range can be cut out of a buffer of `ledCount`
   * LEDs. A range with `first == last + 1` is the empty slice; any range
   * starting further right, or ending at or past `ledCount`, does not fit.
   */
  predicate Fits(interval: Interval, ledCount: nat) {
    interval.first <= interval.last + 1 && interval.last + 1 <= ledCount
  }

  /** True iff LED `p` lies in the inclusive range. */
  predicate Contains(interval: Interval, p: int) {
    interval.first <= p <= interval.last
  }

  /** One entry of a strip's effect list: which effect paints which range. */
  datatype Binding = Binding(effectId: int, interval: Interval)

  /** A strip: its color buffer, its ordered bindings and its output connection. */
  datatype LedStrip = LedStrip(colors: seq<Color>, effects: seq<Binding>, connectionId: Option<int>)

  /** True iff some binding of the list covers LED `p`. */
  predicate Covered(p: int, bindings: seq<Binding>) {
    exists k :: 0 <= k < |bindings| && Contains(bindings[k].interval, p)
  }

  /** A stream connection; `queueOpen` is false once its send queue's receiver is gone. */
  datatype TcpConnection = TcpConnection(queueOpen: bool)

  /** A serial connection, whose send path does not exist. */
  datatype UsbConnection = UsbConnection

  datatype Connection = Tcp(tcp: TcpConnection) | Usb(usb: UsbConnection)

  /** The effect bodies, which update a slice in place and so keep its length. */
  type MoodyUpdate = f: (seq<Color>, MoodySettings) -> seq<Color>
    | forall leds, s :: |f(leds, s)| == |leds|
    witness (leds: seq<Color>, s: MoodySettings) => leds

  type RaindropUpdate = f: (seq<Color>, RaindropSettings, RaindropState) -> (seq<Color>, RaindropState)
    | forall leds, s, st :: |f(leds, s, st).0| == |leds|
    witness (leds: seq<Color>, s: RaindropSettings, st: RaindropState) => (leds, st)

  /** What a script tick leaves in its slice, and the error it raised if any. */
  datatype LuaTick = LuaTick(colors: seq<Color>, error: Option<string>)

  type LuaUpdate = f: (LuaEffect, seq<Color>, LuaEffectSettings) -> LuaTick
    | forall e, leds, s :: |f(e, leds, s).colors| == |leds|
    witness (e: LuaEffect, leds: seq<Color>, s: LuaEffectSettings) => LuaTick(leds, None)

  datatype EffectBodies = EffectBodies(moody: MoodyUpdate, raindrop: RaindropUpdate, lua: LuaUpdate)
}

=== FILE: scenarios.dfy ===
/**
 * Ticks over the fixture tables the program sets up before its loop: effects
 * 10 (Moody), 20 (Raindrop) and 30 (Lua) bound to settings 0, 1 and 2, a
 * stream connection 1 and a serial connection 2.
 */
module Scenarios {
  import opened Wrappers
  import opened Colors
  import opened Resources
  import opened Diagnostics
  import opened Dispatch
  import opened Scheduler

  function FixtureEffects(): map<int, Effect> {
    map[10 := Effect.Moody(Moody.Moody(10)),
        20 := Effect.Raindrop(Raindrops.Raindrops(20, RaindropState([]))),
        30 := Effect.Lua(LuaEffect.LuaEffect("scripts/fade.lua"))]
  }

  function FixtureConfig(): Config {
    Config(
      map[0 := Settings.Moody(MoodySettings.MoodySettings(Color(255, 0, 0))),
          1 := Settings.Raindrop(RaindropSettings.RaindropSettings(1, 0.10)),
          2 := Settings.Lua(LuaEffectSettings.LuaEffectSettings("{\"enable_beep_boops\": true, \"intensity\": 11}"))],
      map[10 := 0, 20 := 1, 30 := 2])
  }

  function FixtureConnections(queueOpen: bool): map<int, Connection> {
    map[1 := Tcp(TcpConnection(queueOpen)), 2 := Usb(UsbConnection)]
  }

  /**
   * A strip painted over its whole length by the script effect, bound to the
   * open stream connection, ticks without a fatal error and sends exactly one
   * frame of three bytes per LED, whatever the script does.
   */
  lemma ScriptStripSendsOneFrame(colors: seq<Color>, bodies: EffectBodies)
    requires |colors| > 0
    ensures var w := World([LedStrip(colors, [Binding(30, Interval(0, |colors| - 1))], Some(1))],
                           FixtureEffects(), FixtureConnections(true));
      var r := Tick(w, FixtureConfig(), bodies);
      && r.Done?
      && r.value.reports[0].frame.Some?
      && r.value.reports[0].frame.value.connectionId == 1
      && |r.value.reports[0].frame.value.payload| == 3 * |colors|
      && r.value.world.connections == FixtureConnections(true)
  {
    var w := World([LedStrip(colors, [Binding(30, Interval(0, |colors| - 1))], Some(1))],
                   FixtureEffects(), FixtureConnections(true));
    TickFatalIff(w, FixtureConfig(), bodies);
    assert Resolves(w.strips[0].effects[0], |colors|, w.effects, FixtureConfig());
    assert !StripFails(w.strips[0], w.effects, w.connections, FixtureConfig());
    assert DispatchDelivers(w.strips[0], w.connections);
  }

  /** Binding the Moody effect to the raindrop settings aborts the tick. */
  lemma MismatchedSettingsAreFatal(colors: seq<Color>, bodies: EffectBodies)
    requires |colors| > 0
    ensures var cfg := FixtureConfig().(effectSettings := FixtureConfig().effectSettings[10 := 1]);
      var w := World([LedStrip(colors, [Binding(10, Interval(0, |colors| - 1))], None)],
                     FixtureEffects(), FixtureConnections(true));
      Tick(w, cfg, bodies) == Fatal(SettingsMismatch(10))
  {
  }

  /** A strip bound to the serial connection aborts the tick at dispatch. */
  lemma SerialConnectionIsFatal(colors: seq<Color>, bodies: EffectBodies)
    ensures var w := World([LedStrip(colors, [], Some(2))], FixtureEffects(), FixtureConnections(true));
      Tick(w, FixtureConfig(), bodies) == Fatal(UsbNotImplemented(2))
  {
  }

  /**
   * Two strips share stream connection 1 whose queue is closed. The first
   * strip's send fails: the connection is dropped and the first strip is
   * unbound. The second strip then finds no connection 1, which is only
   * logged, and it keeps its connection id.
   */
  lemma SharedClosedConnection(c0: seq<Color>, c1: seq<Color>, bodies: EffectBodies)
    ensures var w := World([LedStrip(c0, [], Some(1)), LedStrip(c1, [], Some(1))],
                           FixtureEffects(), FixtureConnections(false));
      var r := Tick(w, FixtureConfig(), bodies);
      && r.Done?
      && r.value.world.strips == [LedStrip(c0, [], None), LedStrip(c1, [], Some(1))]
      && r.value.world.connections == map[2 := Usb(UsbConnection)]
      && r.value.reports == [Report(None, [SendFailed(1)]), Report(None, [UnknownConnection(1)])]
  {
    var cfg := FixtureConfig();
    var w := World([LedStrip(c0, [], Some(1)), LedStrip(c1, [], Some(1))], FixtureEffects(), FixtureConnections(false));
    var rest := map[2 := Usb(UsbConnection)];
    assert FixtureConnections(false) - {1} == rest;
    assert ApplyBindings(c0, [], w.effects, cfg, bodies) == Done(Applied(c0, w.effects, []));
    assert SendToConnection(LedStrip(c0, [], Some(1)), 1, w.connections)
        == Sent(LedStrip(c0, [], None), rest, None, [SendFailed(1)]);
    assert SendToConnection(LedStrip(c1, [], Some(1)), 1, rest) == NoSuchConnection(1);
    assert [] + [SendFailed(1)] == [SendFailed(1)];
    assert [] + [UnknownConnection(1)] == [UnknownConnection(1)];
    assert TickStrip(w.strips[0], w.effects, w.connections, cfg, bodies)
        == Done(StripTicked(LedStrip(c0, [], None), w.effects, rest, Report(None, [SendFailed(1)])));
    assert TickStrip(w.strips[1], w.effects, rest, cfg, bodies)
        == Done(StripTicked(LedStrip(c1, [], Some(1)), w.effects, rest, Report(None, [UnknownConnection(1)])));
    var w1 := World(w.strips[1..], w.effects, rest);
    assert w1.strips[1..] == [];
    assert Tick(World([], w.effects, rest), cfg, bodies) == Done(Ticked(World([], w.effects, rest), []));
  }
}

=== FILE: scheduler.dfy ===
/**
 * The per-tick scheduler: for every strip, apply its effect bindings in list
 * order, each to its own inclusive slice of the color buffer, then dispatch
 * the strip's colors if it has a connection.
 */
module Scheduler {
  import opened Wrappers
  import opened Colors
  import opened Resources
  import opened Diagnostics
  import opened Dispatch

  /** The read-only tables: settings by id, and the settings id of each effect id. */
  datatype Config = Config(settings: map<int, Settings>, effectSettings: map<int, int>)

  /** Everything a tick mutates: the strips, the effects and the connection registry. */
  datatype World = World(strips: seq<LedStrip>, effects: map<int, Effect>, connections: map<int, Connection>)

  /** Overwrites `colors` from index `at` with `slice` (writing through a `&mut` sub-slice). */
  function Splice(colors: seq<Color>, at: nat, slice: seq<Color>): (r: seq<Color>)
    requires at + |slice| <= |colors|
    ensures |r| == |colors|
    ensures forall p :: 0 <= p < |colors| ==> r[p] == if at <= p < at + |slice| then slice[p - at] else colors[p]
    ensures r[at..at + |slice|] == slice
  {
    colors[..at] + slice + colors[at + |slice|..]
  }

  /** The result of running one effect body: new slice, effect after the run, script error. */
  datatype Ran = Ran(colors: seq<Color>, effect: Effect, error: Option<string>)

  /**
   * Runs `effect` on `leds` with the settings found for it, or gives None when
   * the settings are missing or of another variant.
   */
  function RunEffect(effect: Effect, setting: Option<Settings>, leds: seq<Color>, bodies: EffectBodies): (r: Option<Ran>)
    ensures r.Some? <==> setting.Some? && setting.value.Tag() == effect.Tag()
    ensures r.Some? ==> |r.value.colors| == |leds|
    ensures r.Some? ==> Evolves(effect, r.value.effect)
    ensures r.Some? && r.value.error.Some? ==> effect.Lua?
  {
    match (effect, setting)
    case (Moody(_), Some(Moody(s))) => Some(Ran(bodies.moody(leds, s), effect, None))
    case (Raindrop(rd), Some(Raindrop(s))) =>
      var (out, state) := bodies.raindrop(leds, s, rd.state);
      Some(Ran(out, Effect.Raindrop(rd.(state := state)), None))
    case (Lua(script), Some(Lua(s))) =>
      var t := bodies.lua(script, leds, s);
      Some(Ran(t.colors, effect, t.error))
    case _ => None
  }

  /** How a tick may change one effect: only a raindrop's state moves. */
  predicate Evolves(before: Effect, after: Effect) {
    && after.Tag() == before.Tag()
    && (!before.Raindrop? ==> after == before)
    && (before.Raindrop? ==> after.Raindrop? && after.raindrop.id == before.raindrop.id)
  }

  /** How a tick may change the effect table: same ids, each entry evolving. */
  predicate EffectsEvolve(before: map<int, Effect>, after: map<int, Effect>) {
    && after.Keys == before.Keys
    && forall id :: id in before ==> Evolves(before[id], after[id])
  }

  lemma EffectsEvolveTransitive(a: map<int, Effect>, b: map<int, Effect>, c: map<int, Effect>)
    requires EffectsEvolve(a, b) && EffectsEvolve(b, c)
    ensures EffectsEvolve(a, c)
  {
  }

  /**
   * True iff the binding passes every check the scheduler makes: the range
   * fits, the effect and its settings id exist, and the settings exist with
   * the effect's own variant tag.
   */
  predicate Resolves(b: Binding, ledCount: nat, effects: map<int, Effect>, cfg: Config) {
    && Fits(b.interval, ledCount)
    && b.effectId in effects
    && b.effectId in cfg.effectSettings
    && cfg.effectSettings[b.effectId] in cfg.settings
    && cfg.settings[cfg.effectSettings[b.effectId]].Tag() == effects[b.effectId].Tag()
  }

  lemma ResolvesStable(b: Binding, ledCount: nat, e1: map<int, Effect>, e2: map<int, Effect>, cfg: Config)
    requires EffectsEvolve(e1, e2)
    ensures Resolves(b, ledCount, e1, cfg) <==> Resolves(b, ledCount, e2, cfg)
  {
    if b.effectId in e1 {
      assert Evolves(e1[b.effectId], e2[b.effectId]);
    }
  }

  /** A buffer, effect table and log after some bindings have run. */
  datatype Applied = Applied(colors: seq<Color>, effects: map<int, Effect>, log: seq<LogEntry>)

  /** True iff every entry of the log is a script failure. */
  predicate OnlyScriptFailures(log: seq<LogEntry>) {
    forall k :: 0 <= k < |log| ==> log[k].LuaFailed?
  }

  /** Runs one binding: cut out its slice, resolve effect and settings, run the matching body. */
  function ApplyBinding(colors: seq<Color>, b: Binding, effects: map<int, Effect>, cfg: Config, bodies: EffectBodies)
    : (r: Outcome<Applied>)
    ensures r.Fatal? <==> !Resolves(b, |colors|, effects, cfg)
    // which fatal condition is reported, in the order the checks are made
    ensures r == Fatal(IntervalOutOfBounds(b.effectId)) <==> !Fits(b.interval, |colors|)
    ensures r == Fatal(EffectNotFound(b.effectId)) <==> Fits(b.interval, |colors|) && b.effectId !in effects
    ensures r == Fatal(SettingIdNotFound(b.effectId)) <==>
      Fits(b.interval, |colors|) && b.effectId in effects && b.effectId !in cfg.effectSettings
    ensures r == Fatal(SettingsMismatch(b.effectId)) <==>
      && Fits(b.interval, |colors|) && b.effectId in effects && b.effectId in cfg.effectSettings
      && !(cfg.effectSettings[b.effectId] in cfg.settings
           && cfg.settings[cfg.effectSettings[b.effectId]].Tag() == effects[b.effectId].Tag())
    // a run writes only inside the binding's range and touches only its own effect
    ensures r.Done? ==> |r.value.colors| == |colors|
    ensures r.Done? ==> forall p :: 0 <= p < |colors| && !Contains(b.interval, p) ==> r.value.colors[p] == colors[p]
    ensures r.Done? ==> EffectsEvolve(effects, r.value.effects)
    ensures r.Done? ==> forall id :: id in effects && id != b.effectId ==> r.value.effects[id] == effects[id]
    ensures r.Done? ==> OnlyScriptFailures(r.value.log) && |r.value.log| <= 1
  {
    if !Fits(b.interval, |colors|) then Fatal(IntervalOutOfBounds(b.effectId))
    else if b.effectId !in effects then Fatal(EffectNotFound(b.effectId))
    else if b.effectId !in cfg.effectSettings then Fatal(SettingIdNotFound(b.effectId))
    else
      var leds := colors[b.interval.first..b.interval.last + 1];
      var setting := Get(cfg.settings, cfg.effectSettings[b.effectId]);
      match RunEffect(effects[b.effectId], setting, leds, bodies)
      case None => Fatal(SettingsMismatch(b.effectId))
      case Some(ran) =>
        var log := if ran.error.Some? then [LuaFailed(b.effectId, ran.error.value)] else [];
        Done(Applied(Splice(colors, b.interval.first, ran.colors), effects[b.effectId := ran.effect], log))
  }

  /**
   * A resolved binding runs exactly the body of its own variant on its own
   * slice; only a raindrop effect's state is written back, and a script error
   * is logged rather than fatal.
   */
  lemma BindingRunsItsOwnUpdate(colors: seq<Color>, b: Binding, effects: map<int, Effect>, cfg: Config, bodies: EffectBodies)
    requires Resolves(b, |colors|, effects, cfg)
    ensures var r := ApplyBinding(colors, b, effects, cfg, bodies);
      var leds := colors[b.interval.first..b.interval.last + 1];
      var s := cfg.settings[cfg.effectSettings[b.effectId]];
      && r.Done?
      && match effects[b.effectId]
         case Moody(_) =>
           && r.value.colors[b.interval.first..b.interval.last + 1] == bodies.moody(leds, s.moody)
           && r.value.effects == effects && r.value.log == []
         case Raindrop(rd) =>
           var (out, state) := bodies.raindrop(leds, s.raindrop, rd.state);
           && r.value.colors[b.interval.first..b.interval.last + 1] == out
           && r.value.effects == effects[b.effectId := Effect.Raindrop(rd.(state := state))]
           && r.value.log == []
         case Lua(script) =>
           var t := bodies.lua(script, leds, s.lua);
           && r.value.colors[b.interval.first..b.interval.last + 1] == t.colors
           && r.value.effects == effects
           && r.value.log == (if t.error.Some? then [LuaFailed(b.effectId, t.error.value)] else [])
  {
    var r := ApplyBinding(colors, b, effects, cfg, bodies);
    if !effects[b.effectId].Raindrop? {
      assert r.value.effects == effects;
    }
  }

  /** Runs a strip's bindings front to back, each on the buffer the previous ones left. */
  function ApplyBindings(colors: seq<Color>, bindings: seq<Binding>, effects: map<int, Effect>, cfg: Config, bodies: EffectBodies)
    : (r: Outcome<Applied>)
    decreases |bindings|
    ensures r.Done? <==> forall k :: 0 <= k < |bindings| ==> Resolves(bindings[k], |colors|, effects, cfg)
    ensures r.Done? ==> |r.value.colors| == |colors|
    ensures r.Done? ==> forall p :: 0 <= p < |colors| && !Covered(p, bindings) ==> r.value.colors[p] == colors[p]
    ensures r.Done? ==> EffectsEvolve(effects, r.value.effects)
    ensures r.Done? ==> OnlyScriptFailures(r.value.log)
  {
    if |bindings| == 0 then Done(Applied(colors, effects, []))
    else
      var first :- ApplyBinding(colors, bindings[0], effects, cfg, bodies);
      var rest :- ApplyBindings(first.colors, bindings[1..], first.effects, cfg, bodies);
      ResolvesAllStable(bindings[1..], |colors|, effects, first.effects, cfg);
      CoveredByTail(bindings);
      EffectsEvolveTransitive(effects, first.effects, rest.effects);
      Done(Applied(rest.colors, rest.effects, first.log + rest.log))
  }

  lemma ResolvesAllStable(bindings: seq<Binding>, ledCount: nat, e1: map<int, Effect>, e2: map<int, Effect>, cfg: Config)
    requires EffectsEvolve(e1, e2)
    ensures (forall k :: 0 <= k < |bindings| ==> Resolves(bindings[k], ledCount, e1, cfg))
       <==> (forall k :: 0 <= k < |bindings| ==> Resolves(bindings[k], ledCount, e2, cfg))
  {
    forall k | 0 <= k < |bindings| {
      ResolvesStable(bindings[k], ledCount, e1, e2, cfg);
    }
  }

  lemma CoveredByTail(bindings: seq<Binding>)
    requires |bindings| > 0
    ensures forall p :: !Covered(p, bindings) ==> !Covered(p, bindings[1..]) && !Contains(bindings[0].interval, p)
  {
    assert forall k :: 0 <= k < |bindings| - 1 ==> bindings[1..][k] == bindings[k + 1];
  }

  /** Running `bindings + [b]` is running `bindings`, then `b` on what they left. */
  lemma {:induction false} ApplyBindingsAppend(colors: seq<Color>, bindings: seq<Binding>, b: Binding,
                                               effects: map<int, Effect>, cfg: Config, bodies: EffectBodies)
    ensures ApplyBindings(colors, bindings + [b], effects, cfg, bodies) ==
      match ApplyBindings(colors, bindings, effects, cfg, bodies)
      case Fatal(e) => Fatal(e)
      case Done(a) =>
        match ApplyBinding(a.colors, b, a.effects, cfg, bodies)
        case Fatal(e) => Fatal(e)
        case Done(last) => Done(Applied(last.colors, last.effects, a.log + last.log))
    decreases |bindings|
  {
    if |bindings| == 0 {
      assert [] + [b] == [b];
      assert [b][1..] == [];
      match ApplyBinding(colors, b, effects, cfg, bodies)
      case Fatal(e) =>
      case Done(last) =>
        assert last.log + [] == [] + last.log;
    } else {
      assert (bindings + [b])[0] == bindings[0];
      assert (bindings + [b])[1..] == bindings[1..] + [b];
      match ApplyBinding(colors, bindings[0], effects, cfg, bodies)
      case Fatal(e) =>
      case Done(first) =>
        ApplyBindingsAppend(first.colors, bindings[1..], b, first.effects, cfg, bodies);
        match ApplyBindings(first.colors, bindings[1..], first.effects, cfg, bodies)
        case Fatal(e) =>
        case Done(rest) =>
          match ApplyBinding(rest.colors, b, rest.effects, cfg, bodies)
          case Fatal(e) =>
          case Done(last) =>
            assert first.log + (rest.log + last.log) == (first.log + rest.log) + last.log;
    }
  }

  /**
   * Later bindings overwrite earlier ones: after `bindings + [b]`, the range of
   * `b` holds exactly what `b`'s own effect wrote there, from the buffer the
   * earlier bindings left.
   */
  lemma LastBindingWins(colors: seq<Color>, bindings: seq<Binding>, b: Binding,
                        effects: map<int, Effect>, cfg: Config, bodies: EffectBodies)
    requires ApplyBindings(colors, bindings + [b], effects, cfg, bodies).Done?
    ensures ApplyBindings(colors, bindings, effects, cfg, bodies).Done?
    ensures var mid := ApplyBindings(colors, bindings, effects, cfg, bodies).value;
      Resolves(b, |mid.colors|, mid.effects, cfg)
    ensures var mid := ApplyBindings(colors, bindings, effects, cfg, bodies).value;
      var leds := mid.colors[b.interval.first..b.interval.last + 1];
      var setting := Get(cfg.settings, cfg.effectSettings[b.effectId]);
      var final := ApplyBindings(colors, bindings + [b], effects, cfg, bodies).value.colors;
      && RunEffect(mid.effects[b.effectId], setting, leds, bodies).Some?
      && final[b.interval.first..b.interval.last + 1] == RunEffect(mid.effects[b.effectId], setting, leds, bodies).value.colors
  {
    ApplyBindingsAppend(colors, bindings, b, effects, cfg, bodies);
  }

  /** What one strip's turn of the tick reports: the frame sent, and the log. */
  datatype Report = Report(frame: Option<Frame>, log: seq<LogEntry>)

  datatype StripTicked = StripTicked(strip: LedStrip, effects: map<int, Effect>, connections: map<int, Connection>, report: Report)

  /** True iff every binding of the strip passes the scheduler's checks. */
  predicate StripResolves(strip: LedStrip, effects: map<int, Effect>, cfg: Config) {
    forall k :: 0 <= k < |strip.effects| ==> Resolves(strip.effects[k], |strip.colors|, effects, cfg)
  }

  /** True iff the strip is bound to a serial connection, whose send path panics. */
  predicate DispatchPanics(strip: LedStrip, connections: map<int, Connection>) {
    strip.connectionId.Some? && strip.connectionId.value in connections && connections[strip.connectionId.value].Usb?
  }

  /** True iff the strip is bound to an open stream connection, which receives a frame. */
  predicate DispatchDelivers(strip: LedStrip, connections: map<int, Connection>) {
    && strip.connectionId.Some? && strip.connectionId.value in connections
    && connections[strip.connectionId.value].Tcp? && connections[strip.connectionId.value].tcp.queueOpen
  }

  /**
   * How a tick may change one strip: same length and bindings, uncovered LEDs
   * untouched, the connection kept or cleared, at most one frame, which
   * carries the final buffer to the strip's own connection.
   */
  predicate StripEvolves(before: LedStrip, after: LedStrip, report: Report) {
    && |after.colors| == |before.colors|
    && after.effects == before.effects
    && (forall p :: 0 <= p < |before.colors| && !Covered(p, before.effects) ==> after.colors[p] == before.colors[p])
    && (after.connectionId == before.connectionId || after.connectionId == None)
    && (report.frame.Some? ==>
          && before.connectionId == Some(report.frame.value.connectionId)
          && after.connectionId == before.connectionId
          && report.frame.value.payload == Serialize(after.colors))
    && (before.connectionId == None ==> report.frame == None)
  }

  /**
   * How a tick may change the registry: entries are only removed, never added
   * or altered, and only stream connections whose queue is closed are removed.
   */
  predicate ConnectionsShrink(before: map<int, Connection>, after: map<int, Connection>) {
    && after.Keys <= before.Keys
    && (forall c :: c in after ==> after[c] == before[c])
    && (forall c :: c in before && c !in after ==> before[c].Tcp? && !before[c].tcp.queueOpen)
  }

  lemma ConnectionsShrinkTransitive(a: map<int, Connection>, b: map<int, Connection>, c: map<int, Connection>)
    requires ConnectionsShrink(a, b) && ConnectionsShrink(b, c)
    ensures ConnectionsShrink(a, c)
  {
  }

  /** True iff the strip's connection was dropped during the tick because its queue was closed. */
  predicate UnboundForClosedQueue(before: LedStrip, after: LedStrip,
                                  connsBefore: map<int, Connection>, connsAfter: map<int, Connection>) {
    before.connectionId.Some? && after.connectionId.None? ==>
      var c := before.connectionId.value;
      c in connsBefore && connsBefore[c].Tcp? && !connsBefore[c].tcp.queueOpen && c !in connsAfter
  }

  /** True iff the strip's turn of the tick is fatal: a binding fails its checks, or it is bound to a serial connection. */
  predicate StripFails(strip: LedStrip, effects: map<int, Effect>, connections: map<int, Connection>, cfg: Config) {
    !StripResolves(strip, effects, cfg) || DispatchPanics(strip, connections)
  }

  /** True iff every connection dropped from the registry was the strip's own, and the strip ended unbound. */
  predicate DropsOnlyOwn(before: LedStrip, after: LedStrip,
                         connsBefore: map<int, Connection>, connsAfter: map<int, Connection>) {
    forall c :: c in connsBefore && c !in connsAfter ==> before.connectionId == Some(c) && after.connectionId == None
  }

  /** One strip's turn: run all its bindings, then dispatch once if it has a connection. */
  function TickStrip(strip: LedStrip, effects: map<int, Effect>, connections: map<int, Connection>,
                     cfg: Config, bodies: EffectBodies): (r: Outcome<StripTicked>)
    ensures r.Fatal? <==> StripFails(strip, effects, connections, cfg)
    ensures r.Done? ==> StripEvolves(strip, r.value.strip, r.value.report)
    ensures r.Done? ==> EffectsEvolve(effects, r.value.effects)
    ensures r.Done? ==> ConnectionsShrink(connections, r.value.connections)
    ensures r.Done? ==> UnboundForClosedQueue(strip, r.value.strip, connections, r.value.connections)
    // the buffer sent and kept is the one the bindings painted, and the table they left
    ensures r.Done? ==>
      var painted := ApplyBindings(strip.colors, strip.effects, effects, cfg, bodies);
      && painted.Done?
      && r.value.strip.colors == painted.value.colors
      && r.value.effects == painted.value.effects
    // dispatch depends on the connection alone, not on how the effects fared
    ensures r.Done? ==> (r.value.report.frame.Some? <==> DispatchDelivers(strip, connections))
    // a closed stream queue unbinds the strip and drops exactly that connection
    ensures (&& r.Done? && strip.connectionId.Some? && strip.connectionId.value in connections
             && connections[strip.connectionId.value].Tcp? && !connections[strip.connectionId.value].tcp.queueOpen) ==>
      && r.value.strip.connectionId == None
      && r.value.connections == connections - {strip.connectionId.value}
      && |r.value.report.log| > 0
      && r.value.report.log[|r.value.report.log| - 1] == SendFailed(strip.connectionId.value)
    // only a closed stream queue changes the registry
    ensures (&& r.Done?
             && !(&& strip.connectionId.Some? && strip.connectionId.value in connections
                  && connections[strip.connectionId.value].Tcp? && !connections[strip.connectionId.value].tcp.queueOpen)) ==>
      r.value.connections == connections
    ensures r.Done? ==> DropsOnlyOwn(strip, r.value.strip, connections, r.value.connections)
    // with no connection, or a delivered frame, the log is the bindings' own
    ensures r.Done? && (strip.connectionId.None? || DispatchDelivers(strip, connections)) ==>
      r.value.report.log == ApplyBindings(strip.colors, strip.effects, effects, cfg, bodies).value.log
    // an unknown connection id is logged and changes nothing
    ensures r.Done? && strip.connectionId.Some? && strip.connectionId.value !in connections ==>
      && r.value.strip.connectionId == strip.connectionId
      && r.value.connections == connections
      && |r.value.report.log| > 0
      && r.value.report.log[|r.value.report.log| - 1] == UnknownConnection(strip.connectionId.value)
  {
    var applied :- ApplyBindings(strip.colors, strip.effects, effects, cfg, bodies);
    var painted := strip.(colors := applied.colors);
    match painted.connectionId
    case None => Done(StripTicked(painted, applied.effects, connections, Report(None, applied.log)))
    case Some(c) =>
      match SendToConnection(painted, c, connections)
      case Sent(sent, registry, frame, log) =>
        Done(StripTicked(sent, applied.effects, registry, Report(frame, applied.log + log)))
      case NoSuchConnection(id) =>
        Done(StripTicked(painted, applied.effects, connections, Report(None, applied.log + [UnknownConnection(id)])))
      case Panicked(e) => Fatal(e)
  }

  /** A whole tick after all strips have had their turn. */
  datatype Ticked = Ticked(world: World, reports: seq<Report>)

  /**
   * What a completed tick guarantees about the world it started from: one
   * report per strip, every strip evolving as `StripEvolves` allows and
   * unbound only for a closed queue, the effect table evolving, the registry
   * only shrinking.
   */
  predicate TickKeeps(before: World, t: Ticked) {
    && |t.world.strips| == |before.strips| && |t.reports| == |before.strips|
    && (forall i {:trigger t.reports[i]} :: 0 <= i < |before.strips| ==>
          && StripEvolves(before.strips[i], t.world.strips[i], t.reports[i])
          && UnboundForClosedQueue(before.strips[i], t.world.strips[i], before.connections, t.world.connections))
    && EffectsEvolve(before.effects, t.world.effects)
    && ConnectionsShrink(before.connections, t.world.connections)
    && DropsOnlyFailedSends(before, t)
  }

  /** True iff every connection the tick dropped belonged to a strip that the tick left unbound. */
  predicate DropsOnlyFailedSends(before: World, t: Ticked)
    requires |t.world.strips| == |before.strips|
  {
    forall c :: c in before.connections && c !in t.world.connections ==>
      exists i :: 0 <= i < |before.strips| && before.strips[i].connectionId == Some(c) && t.world.strips[i].connectionId == None
  }

  lemma UnboundAcrossShrinks(before: LedStrip, after: LedStrip,
                             c0: map<int, Connection>, c1: map<int, Connection>, c2: map<int, Connection>)
    requires ConnectionsShrink(c0, c1) && ConnectionsShrink(c1, c2)
    requires UnboundForClosedQueue(before, after, c0, c1) || UnboundForClosedQueue(before, after, c1, c2)
    ensures UnboundForClosedQueue(before, after, c0, c2)
  {
  }

  /** The first strip's turn followed by a tick over the rest is a tick over all strips. */
  lemma TickKeepsCons(w: World, head: StripTicked, rest: Ticked)
    requires |w.strips| > 0
    requires StripEvolves(w.strips[0], head.strip, head.report)
    requires UnboundForClosedQueue(w.strips[0], head.strip, w.connections, head.connections)
    requires EffectsEvolve(w.effects, head.effects)
    requires ConnectionsShrink(w.connections, head.connections)
    requires DropsOnlyOwn(w.strips[0], head.strip, w.connections, head.connections)
    requires TickKeeps(World(w.strips[1..], head.effects, head.connections), rest)
    ensures TickKeeps(w, Ticked(World([head.strip] + rest.world.strips, rest.world.effects, rest.world.connections),
                                [head.report] + rest.reports))
  {
    EffectsEvolveTransitive(w.effects, head.effects, rest.world.effects);
    ConnectionsShrinkTransitive(w.connections, head.connections, rest.world.connections);
    var strips := [head.strip] + rest.world.strips;
    var reports := [head.report] + rest.reports;
    UnboundAcrossShrinks(w.strips[0], head.strip, w.connections, head.connections, rest.world.connections);
    forall i | 1 <= i < |w.strips|
      ensures StripEvolves(w.strips[i], strips[i], reports[i])
      ensures UnboundForClosedQueue(w.strips[i], strips[i], w.connections, rest.world.connections)
    {
      assert strips[i] == rest.world.strips[i - 1] && reports[i] == rest.reports[i - 1];
      assert w.strips[i] == w.strips[1..][i - 1];
      UnboundAcrossShrinks(w.strips[i], strips[i], w.connections, head.connections, rest.world.connections);
    }
    DropsCons(w, head, rest);
  }

  /** A dropped connection was dropped either by the first strip's turn or by the tick of the rest. */
  lemma DropsCons(w: World, head: StripTicked, rest: Ticked)
    requires |w.strips| > 0
    requires DropsOnlyOwn(w.strips[0], head.strip, w.connections, head.connections)
    requires ConnectionsShrink(head.connections, rest.world.connections)
    requires |rest.world.strips| == |w.strips| - 1
    requires DropsOnlyFailedSends(World(w.strips[1..], head.effects, head.connections), rest)
    ensures DropsOnlyFailedSends(w, Ticked(World([head.strip] + rest.world.strips, rest.world.effects, rest.world.connections),
                                           [head.report] + rest.reports))
  {
    var w' := World(w.strips[1..], head.effects, head.connections);
    var strips := [head.strip] + rest.world.strips;
    forall c | c in w.connections && c !in rest.world.connections
      ensures exists i :: 0 <= i < |w.strips| && w.strips[i].connectionId == Some(c) && strips[i].connectionId == None
    {
      if c !in head.connections {
        assert strips[0] == head.strip;
        assert w.strips[0].connectionId == Some(c) && strips[0].connectionId == None;
      } else {
        var j :| 0 <= j < |w'.strips| && w'.strips[j].connectionId == Some(c) && rest.world.strips[j].connectionId == None;
        assert w.strips[j + 1] == w'.strips[j] && strips[j + 1] == rest.world.strips[j];
      }
    }
  }

  /**
   * One tick: every strip in order, each seeing the effect table and the
   * registry the strips before it left.
   */
  function Tick(w: World, cfg: Config, bodies: EffectBodies): (r: Outcome<Ticked>)
    decreases |w.strips|
    ensures r.Done? ==> TickKeeps(w, r.value)
  {
    if |w.strips| == 0 then Done(Ticked(w, []))
    else
      var head :- TickStrip(w.strips[0], w.effects, w.connections, cfg, bodies);
      var rest :- Tick(World(w.strips[1..], head.effects, head.connections), cfg, bodies);
      TickKeepsCons(w, head, rest);
      Done(Ticked(World([head.strip] + rest.world.strips, rest.world.effects, rest.world.connections),
                  [head.report] + rest.reports))
  }

  /**
   * The world as strip `i` finds it: the strips from `i` on, with the effect
   * table and registry that the turns of strips `0..i-1` left.
   */
  function Seen(w: World, cfg: Config, bodies: EffectBodies, i: nat): (r: Outcome<World>)
    requires i <= |w.strips|
    ensures r.Done? ==> r.value.strips == w.strips[i..]
    decreases i
  {
    if i == 0 then Done(w)
    else
      var head :- TickStrip(w.strips[0], w.effects, w.connections, cfg, bodies);
      Seen(World(w.strips[1..], head.effects, head.connections), cfg, bodies, i - 1)
  }

  /** One step of a completed tick: the first strip's turn, then the tick of the rest. */
  lemma TickDoneStep(w: World, cfg: Config, bodies: EffectBodies)
    requires |w.strips| > 0
    requires Tick(w, cfg, bodies).Done?
    ensures var head := TickStrip(w.strips[0], w.effects, w.connections, cfg, bodies);
      && head.Done?
      && var rest := Tick(World(w.strips[1..], head.value.effects, head.value.connections), cfg, bodies);
      && rest.Done?
      && Tick(w, cfg, bodies).value.world.strips == [head.value.strip] + rest.value.world.strips
      && Tick(w, cfg, bodies).value.reports == [head.value.report] + rest.value.reports
      && Tick(w, cfg, bodies).value.world.connections == rest.value.world.connections
      && ConnectionsShrink(head.value.connections, rest.value.world.connections)
  {
  }

  /** Past the first strip, the world a strip finds is the one it finds in the tick of the rest. */
  lemma SeenStep(w: World, cfg: Config, bodies: EffectBodies, i: nat)
    requires 0 < i <= |w.strips|
    requires TickStrip(w.strips[0], w.effects, w.connections, cfg, bodies).Done?
    ensures var head := TickStrip(w.strips[0], w.effects, w.connections, cfg, bodies).value;
      Seen(w, cfg, bodies, i) == Seen(World(w.strips[1..], head.effects, head.connections), cfg, bodies, i - 1)
  {
  }

  /**
   * Strip `i`'s entry in the completed tick `t` is what its own turn
   * produced, taken in the world the earlier strips left; later turns only
   * shrink the registry further.
   */
  predicate TurnShows(w: World, cfg: Config, bodies: EffectBodies, i: nat, t: Ticked)
    requires i < |w.strips|
  {
    && Seen(w, cfg, bodies, i).Done?
    && TurnAt(w, cfg, bodies, i).Done?
    && i < |t.world.strips| && i < |t.reports|
    && t.world.strips[i] == TurnAt(w, cfg, bodies, i).value.strip
    && t.reports[i] == TurnAt(w, cfg, bodies, i).value.report
    && ConnectionsShrink(TurnAt(w, cfg, bodies, i).value.connections, t.world.connections)
  }

  /** Strip `i`'s turn in the world it finds. */
  function TurnAt(w: World, cfg: Config, bodies: EffectBodies, i: nat): Outcome<StripTicked>
    requires i < |w.strips| && Seen(w, cfg, bodies, i).Done?
  {
    TickStrip(w.strips[i], Seen(w, cfg, bodies, i).value.effects, Seen(w, cfg, bodies, i).value.connections, cfg, bodies)
  }

  /** The first strip's entry in a completed tick is its own turn in the initial world. */
  lemma TickStripAtHead(w: World, cfg: Config, bodies: EffectBodies)
    requires |w.strips| > 0
    ensures Tick(w, cfg, bodies).Done? ==> TurnShows(w, cfg, bodies, 0, Tick(w, cfg, bodies).value)
  {
    if Tick(w, cfg, bodies).Done? {
      TickDoneStep(w, cfg, bodies);
      var t := Tick(w, cfg, bodies).value;
      var head := TickStrip(w.strips[0], w.effects, w.connections, cfg, bodies).value;
      var rest := Tick(World(w.strips[1..], head.effects, head.connections), cfg, bodies).value;
      assert Seen(w, cfg, bodies, 0) == Done(w);
      assert t.world.strips[0] == head.strip;
      assert t.reports[0] == head.report;
      assert t.world.connections == rest.world.connections;
      assert ConnectionsShrink(head.connections, t.world.connections);
    }
  }

  /** Strip `i > 0`'s entry in a completed tick is its entry `i - 1` in the tick of the rest. */
  lemma TickStripAtStep(w: World, cfg: Config, bodies: EffectBodies, i: nat, t: Ticked, w': World, rest: Ticked)
    requires 0 < i < |w.strips|
    requires TickStrip(w.strips[0], w.effects, w.connections, cfg, bodies).Done?
    requires w' == World(w.strips[1..], TickStrip(w.strips[0], w.effects, w.connections, cfg, bodies).value.effects,
                         TickStrip(w.strips[0], w.effects, w.connections, cfg, bodies).value.connections)
    requires t.world.strips == [TickStrip(w.strips[0], w.effects, w.connections, cfg, bodies).value.strip] + rest.world.strips
    requires t.reports == [TickStrip(w.strips[0], w.effects, w.connections, cfg, bodies).value.report] + rest.reports
    requires t.world.connections == rest.world.connections
    requires TurnShows(w', cfg, bodies, i - 1, rest)
    ensures TurnShows(w, cfg, bodies, i, t)
  {
    SeenStep(w, cfg, bodies, i);
    var seen := Seen(w', cfg, bodies, i - 1).value;
    var turn' := TickStrip(w'.strips[i - 1], seen.effects, seen.connections, cfg, bodies);
    assert turn'.Done?;
    assert ConnectionsShrink(turn'.value.connections, rest.world.connections);
    assert Seen(w, cfg, bodies, i).value == seen;
    assert w'.strips[i - 1] == w.strips[i];
    var turn := TickStrip(w.strips[i], seen.effects, seen.connections, cfg, bodies);
    assert turn == turn';
    assert t.world.strips[i] == rest.world.strips[i - 1] == turn.value.strip;
    assert t.reports[i] == rest.reports[i - 1] == turn.value.report;
  }

  /** Within a completed tick `t`, every strip's entry is what its own turn produced. */
  lemma {:induction false} TickStripAt(w: World, cfg: Config, bodies: EffectBodies, i: nat, t: Ticked)
    requires i < |w.strips|
    requires Tick(w, cfg, bodies) == Done(t)
    ensures TurnShows(w, cfg, bodies, i, t)
    decreases i, 1
  {
    if i == 0 {
      TickStripAtHead(w, cfg, bodies);
    } else {
      TickStripAtLater(w, cfg, bodies, i, t);
    }
  }

  /** The inductive case of `TickStripAt`: past the first strip, look in the tick of the rest. */
  lemma {:induction false} TickStripAtLater(w: World, cfg: Config, bodies: EffectBodies, i: nat, t: Ticked)
    requires 0 < i < |w.strips|
    requires Tick(w, cfg, bodies) == Done(t)
    ensures TurnShows(w, cfg, bodies, i, t)
    decreases i, 0
  {
    TickDoneStep(w, cfg, bodies);
    var head := TickStrip(w.strips[0], w.effects, w.connections, cfg, bodies).value;
    var w' := World(w.strips[1..], head.effects, head.connections);
    var rest := Tick(w', cfg, bodies).value;
    TickStripAt(w', cfg, bodies, i - 1, rest);
    TickStripAtStep(w, cfg, bodies, i, t, w', rest);
  }

  /**
   * Within a completed tick, strip `i` ends with exactly the buffer its
   * bindings paint against the effect table the earlier strips left.
   */
  lemma TickPaintsEachStrip(w: World, cfg: Config, bodies: EffectBodies, i: nat)
    requires i < |w.strips|
    ensures Tick(w, cfg, bodies).Done? ==> Seen(w, cfg, bodies, i).Done?
    ensures Tick(w, cfg, bodies).Done? ==>
      var painted := ApplyBindings(w.strips[i].colors, w.strips[i].effects, Seen(w, cfg, bodies, i).value.effects, cfg, bodies);
      painted.Done? && Tick(w, cfg, bodies).value.world.strips[i].colors == painted.value.colors
  {
    if Tick(w, cfg, bodies).Done? {
      TickStripAt(w, cfg, bodies, i, Tick(w, cfg, bodies).value);
    }
  }

  /** A frame sent in a completed tick carries the buffer the strip's bindings painted. */
  lemma TickSendsPaintedBuffer(w: World, cfg: Config, bodies: EffectBodies, i: nat)
    requires i < |w.strips|
    ensures Tick(w, cfg, bodies).Done? && Tick(w, cfg, bodies).value.reports[i].frame.Some? ==>
      && Seen(w, cfg, bodies, i).Done?
      && var painted := ApplyBindings(w.strips[i].colors, w.strips[i].effects, Seen(w, cfg, bodies, i).value.effects, cfg, bodies);
      && painted.Done?
      && Tick(w, cfg, bodies).value.reports[i].frame.value.payload == Serialize(painted.value.colors)
  {
    if Tick(w, cfg, bodies).Done? {
      TickStripAt(w, cfg, bodies, i, Tick(w, cfg, bodies).value);
    }
  }

  /**
   * Within a completed tick, a strip whose connection is a closed stream
   * queue when its turn comes ends unbound, and that connection is gone from
   * the final registry.
   */
  lemma TickUnbindsClosedQueue(w: World, cfg: Config, bodies: EffectBodies, i: nat)
    requires i < |w.strips|
    ensures Tick(w, cfg, bodies).Done? ==> Seen(w, cfg, bodies, i).Done?
    ensures Tick(w, cfg, bodies).Done? ==>
      var seen := Seen(w, cfg, bodies, i).value;
      var id := w.strips[i].connectionId;
      id.Some? && id.value in seen.connections
        && seen.connections[id.value].Tcp? && !seen.connections[id.value].tcp.queueOpen ==>
        && Tick(w, cfg, bodies).value.world.strips[i].connectionId == None
        && id.value !in Tick(w, cfg, bodies).value.world.connections
  {
    if Tick(w, cfg, bodies).Done? {
      TickStripAt(w, cfg, bodies, i, Tick(w, cfg, bodies).value);
    }
  }

  /** A connection that no strip is bound to is still in the registry, unchanged, after a completed tick. */
  lemma UnusedConnectionSurvives(w: World, cfg: Config, bodies: EffectBodies, c: int)
    ensures (&& Tick(w, cfg, bodies).Done? && c in w.connections
             && (forall i :: 0 <= i < |w.strips| ==> w.strips[i].connectionId != Some(c))) ==>
      && c in Tick(w, cfg, bodies).value.world.connections
      && Tick(w, cfg, bodies).value.world.connections[c] == w.connections[c]
  {
    if Tick(w, cfg, bodies).Done? && c in w.connections && c !in Tick(w, cfg, bodies).value.world.connections {
      var t := Tick(w, cfg, bodies).value;
      var i :| 0 <= i < |w.strips| && w.strips[i].connectionId == Some(c) && t.world.strips[i].connectionId == None;
    }
  }


  lemma StripFailsStable(strip: LedStrip, e1: map<int, Effect>, e2: map<int, Effect>,
                         c1: map<int, Connection>, c2: map<int, Connection>, cfg: Config)
    requires EffectsEvolve(e1, e2) && ConnectionsShrink(c1, c2)
    ensures StripFails(strip, e1, c1, cfg) <==> StripFails(strip, e2, c2, cfg)
  {
    ResolvesAllStable(strip.effects, |strip.colors|, e1, e2, cfg);
    if strip.connectionId.Some? {
      var c := strip.connectionId.value;
      if c in c1 && c1[c].Usb? {
        assert c in c2;
      }
    }
  }

  /** One step of a tick: it is fatal iff the first strip's turn is, or the rest of the tick is. */
  lemma TickFatalStep(w: World, cfg: Config, bodies: EffectBodies)
    requires |w.strips| > 0
    ensures var head := TickStrip(w.strips[0], w.effects, w.connections, cfg, bodies);
      && (head.Fatal? <==> StripFails(w.strips[0], w.effects, w.connections, cfg))
      && (Tick(w, cfg, bodies).Fatal? <==>
            head.Fatal? ||
            Tick(World(w.strips[1..], head.value.effects, head.value.connections), cfg, bodies).Fatal?)
  {
  }

  /**
   * A tick is fatal exactly when some strip has a binding that fails the
   * scheduler's checks or is bound to a serial connection, judged against the
   * tables as they were when the tick started.
   */
  lemma {:induction false} TickFatalIff(w: World, cfg: Config, bodies: EffectBodies)
    ensures Tick(w, cfg, bodies).Fatal? <==>
      exists i :: 0 <= i < |w.strips| && StripFails(w.strips[i], w.effects, w.connections, cfg)
    decreases |w.strips|
  {
    if |w.strips| > 0 {
      TickFatalStep(w, cfg, bodies);
      var head := TickStrip(w.strips[0], w.effects, w.connections, cfg, bodies);
      if head.Done? {
        var w' := World(w.strips[1..], head.value.effects, head.value.connections);
        TickFatalIff(w', cfg, bodies);
        forall i | 1 <= i < |w.strips|
          ensures StripFails(w.strips[i], w.effects, w.connections, cfg)
              <==> StripFails(w'.strips[i - 1], w'.effects, w'.connections, cfg)
        {
          StripFailsStable(w.strips[i], w.effects, w'.effects, w.connections, w'.connections, cfg);
        }
        if Tick(w', cfg, bodies).Fatal? {
          var j :| 0 <= j < |w'.strips| && StripFails(w'.strips[j], w'.effects, w'.connections, cfg);
          assert StripFails(w.strips[j + 1], w.effects, w.connections, cfg);
        }
      } else {
        assert StripFails(w.strips[0], w.effects, w.connections, cfg);
      }
    }
  }

  /** Script failures are never fatal: whether a tick aborts does not depend on what the effect bodies do. */
  lemma FatalityIgnoresEffectBodies(w: World, cfg: Config, b1: EffectBodies, b2: EffectBodies)
    ensures Tick(w, cfg, b1).Fatal? <==> Tick(w, cfg, b2).Fatal?
  {
    TickFatalIff(w, cfg, b1);
    TickFatalIff(w, cfg, b2);
  }

  /** A strip left without a connection by one tick sends nothing in the next and stays unbound. */
  lemma UnboundStripStaysSilent(w: World, cfg: Config, bodies: EffectBodies, i: nat)
    requires i < |w.strips|
    ensures var first := Tick(w, cfg, bodies);
      first.Done? && first.value.world.strips[i].connectionId.None? ==>
        var second := Tick(first.value.world, cfg, bodies);
        second.Done? ==>
          && second.value.reports[i].frame.None?
          && second.value.world.strips[i].connectionId.None?
  {
  }
}

=== FILE: wrappers.dfy ===
/** Option and map lookup, the two helpers the rest of the model shares. */
module Wrappers {

  /** An optional value: Rust's `Option`, as returned by `HashMap::get` and the `?` lookups. */
  datatype Option<+T> = None | Some(value: T) {

    /** Returns the value held in Some, or `default` for None (Rust's `unwrap_or`). */
    function GetOr(default: T): (r: T)
      ensures Some? ==> r == value
      ensures None? ==> r == default
    {
      match this
      case Some(v) => v
      case None => default
    }
  }

  /** Looks `k` up in `m` (Rust's `HashMap::get`). */
  function Get<K, V>(m: map<K, V>, k: K): (r: Option<V>)
    ensures r.Some? <==> k in m
    ensures r.Some? ==> r.value == m[k]
  {
    if k in m then Some(m[k]) else None
  }
}
